=== FILE: README.md ===
# Anno 1800 production calculator — a Dafny model

This project models the calculation core of an Anno 1800 production-chain
calculator. A catalogue registers goods, recipes, production buildings and
modifiers (electricity, items, specialists). For a target good and a target
rate in tons per minute, the calculator builds a production tree:
- which building produces the good and how many of them are needed;
- the workforce they need;
- what each input is demanded at, with each input's own sub-tree.

It works in two modes:
- **base mode** runs every building on its base recipe;
- **optimized mode** first selects modifiers with a fixed priority heuristic, then folds their effects over the base recipe.

Modules, following the structure of the program:

| file | module | models |
|---|---|---|
| ordered_dict.dfy | `Wrappers`, `OrderedDict` | `Option`; insertion-ordered dictionaries with Python `dict` assignment semantics |
| good.dfy | `Goods` | goods, name-based equality and hashing |
| recipe.dfy | `Recipes` | recipes and their rate lookups |
| building.dfy | `Buildings` | production buildings, base rates, cycles per minute |
| modifier.dfy | `Modifiers` | effects, modifiers, compatibility and the per-modifier getters |
| effects.dfy | `EffectEngine` | applying an ordered list of modifiers to a building |
| catalog.dfy | `Catalog` | the registries and the search for a good's producer |
| selection.dfy | `Selection` | the modifier-selection heuristic |
| resolver.dfy | `ChainResolver` | the recursive production-chain calculation |
| demo.dfy | `Demo` | the repository's sample catalogue (bread and chocolate) and the figures computed for it |

Modelling decisions:
- **Rates** are `real`. Python's `int()` on the workforce is `Truncate`, which rounds toward zero.
- **Effects** are a datatype with one variant per effect type. An effect of an unknown type is kept as `Unrecognised`, and every getter ignores it. A field missing from an effect takes the default the source reads it with.
- **Collected effects**: the replacement and extra-output dictionaries of a modifier are association lists. Assigning to a present key overwrites its value and keeps its position; a new key goes last.
- **Registries**: the building registry uses the same ordered dictionaries, because the producer search depends on registration order. Goods and recipes are maps. Modifiers are a sequence.
- **Termination**: the source resolves inputs recursively and never checks for cycles. The resolver takes a `rank: string -> nat` and requires `Acyclic`: the rank drops from every good to each input it recurses on. `BaseRankingSuffices` reduces this to a condition on base recipes alone, in base mode and in optimized mode when no registered modifier replaces an input. `ResolveIgnoresRank` shows that the rank adds no behaviour: any two ranks that satisfy `Acyclic` give the same tree.
- **Result tree**: a `Node` is one of three variants:
  - `Failed(error)` carries the source's error message.
  - `Terminal` is a raw good.
  - `Produced` is a good with a producer. It carries the effective `Recipe` value where the source stores its string form.

## Model

| member | source | states |
|---|---|---|
| OrderedDict.KeySet | system_calculator.py:121 | the goods of a dictionary as a set: exactly the keys its iteration visits |
| OrderedDict.Get | modifier.py:70-93 | the value a key maps to in a collected dictionary, if any; it has no contract of its own, and GetNoneIffAbsent, Put and CollectLastWriteWins state its properties |
| OrderedDict.GetNoneIffAbsent | modifier.py:70-93 | a lookup fails exactly when the key is not among the keys |
| OrderedDict.Put | system_calculator.py:35-37 | after registering `k`, a lookup of `k` returns the new value and every other key's lookup is unchanged |
| OrderedDict.PutKeyOrder | system_calculator.py:35-37 | re-registering a present key keeps the key order; a new key is appended last |
| OrderedDict.PutKeepsUniqueKeys | system_calculator.py:35-37 | assignment never duplicates a key |
| OrderedDict.PutNewKeyAppends | system_calculator.py:35-37 | assigning an absent key appends exactly one entry |
| OrderedDict.PutPresentKeyInPlace | system_calculator.py:35-37 | assigning a present key replaces its entry in place |
| OrderedDict.PutEntries | system_calculator.py:35-37 | after an assignment every entry is the assigned pair or an entry that was already there |
| Goods.Equals | good.py:35-39 | a Good never equals a non-Good; two Goods are equal exactly when their names are |
| Goods.EqualsIgnoresRawFlag | good.py:35-39 | Goods with the same name are equal whatever their raw flags |
| Goods.EqualsIsEquivalence | good.py:35-39 | equality between Goods is reflexive, symmetric and transitive |
| Goods.HashRespectsEquals | good.py:31-33 | equal Goods hash alike, for any string hash |
| Goods.Hash | good.py:31-33 | the hash of a Good is the string hash of its name; it has no contract of its own, and HashRespectsEquals states its property |
| Recipes.RateOf | recipe.py:42-54 | `dict.get(g, 0.0)`: the stored rate of a listed good, 0.0 for any other good |
| Recipes.NonZeroRateIsListed | recipe.py:32-54 | a non-zero input or output rate is the stored entry of that map; a good in neither map has rate 0.0 both ways |
| Recipes.InputRate | recipe.py:32-42 | the stored input rate of a listed good, 0.0 for a good that is not an input |
| Recipes.OutputRate | recipe.py:44-54 | the stored output rate of a listed good, 0.0 for a good that is not an output |
| Buildings.BaseOutputRate | production_building.py:45-55 | the base recipe's stored output rate, 0.0 when the good is not an output |
| Buildings.BaseInputRate | production_building.py:57-67 | the base recipe's stored input rate, 0.0 when the good is not an input |
| Buildings.CyclesPerMinute | production_building.py:69-78 | for a positive cycle time, a positive rate that times the cycle time gives 60 s; otherwise 0.0 |
| Modifiers.AnyTagIn | modifier.py:38-48 | true exactly when some target tag occurs among the building's tags |
| Modifiers.CanApplyTo | modifier.py:38-48 | applicable exactly when a tag is shared; never applicable with no target tags |
| Modifiers.Contribution | modifier.py:58-60 | what one effect adds to a sum: its value when it is of the summed kind, 0.0 otherwise; it has no contract of its own, and SumOf and IgnoresOtherKinds state its properties |
| Modifiers.SumOf | modifier.py:50-61 | 0.0 when no effect is of the summed kind; non-negative when no contribution is negative |
| Modifiers.SumOfAppend | modifier.py:57-61 | the sum over a concatenation is the sum of the two sums |
| Modifiers.IgnoresOtherKinds | modifier.py:57-61 | inserting an effect of another kind anywhere leaves the sum unchanged |
| Modifiers.ProductivityBonus | modifier.py:50-61 | 0.0 for a modifier without productivity effects |
| Modifiers.WorkforceReductionOf | modifier.py:95-106 | 0.0 for a modifier without workforce-reduction effects |
| Modifiers.Collect | modifier.py:70-93 | the loop that builds the replacement and extra-output dictionaries in effect order; it has no contract of its own, and CollectLastWriteWins, CollectAbsent and CollectKeyOrder state its properties |
| Modifiers.CollectLastWriteWins | modifier.py:63-93 | a key maps to `v` exactly when some effect writes `v` to it and no later effect writes to it again |
| Modifiers.CollectAbsent | modifier.py:63-93 | a key is absent exactly when no effect writes to it |
| Modifiers.CollectUniqueKeys | modifier.py:63-93 | the collected dictionary never holds a key twice |
| Modifiers.CollectNothing | modifier.py:63-93 | when no effect is selected, the dictionary is empty |
| Modifiers.CollectEntries | modifier.py:63-93 | every collected pair is the pair some effect assigns |
| Modifiers.FirstWriteIsFirst | modifier.py:63-93 | the first-assignment position of a key is the first effect that assigns it, or the end when none does |
| Modifiers.CollectKeyOrder | modifier.py:63-93 | the collected keys are in the order of their first assignment: every key was assigned, and an earlier key was first assigned earlier |
| Modifiers.ReplacementPick | modifier.py:72-76 | the filter `if original and new`: a replacement effect counts only with both names non-empty; it has no contract of its own, and InputReplacementsLastWins states its effect |
| Modifiers.ExtraOutputPick | modifier.py:88-92 | the filter `if good and amount > 0`: an extra-output effect counts only with a non-empty good and a positive amount; it has no contract of its own, and ExtraOutputsLastWins states its effect |
| Modifiers.InputReplacements | modifier.py:63-77 | distinct originals; both names non-empty; each pair comes from one of the modifier's replacement effects |
| Modifiers.ExtraOutputs | modifier.py:79-93 | distinct goods; each good non-empty with a positive amount; each pair comes from one of the modifier's extra-output effects |
| Modifiers.InputReplacementsLastWins | modifier.py:63-77 | `original` maps to `replacement` exactly when both names are non-empty, an effect says so, and no later effect re-replaces `original` with a non-empty new name |
| Modifiers.TwoReplacementsInOrder | modifier.py:63-77 | replacements of two different originals are collected in the order of their effects |
| Modifiers.ReReplacementKeepsPosition | modifier.py:63-77 | replacing an original a second time overwrites its new name and keeps its first position, ahead of a replacement made in between |
| Modifiers.ExtraOutputsLastWins | modifier.py:79-93 | `good` gets `amount` exactly when the good is non-empty, the amount is positive, an effect says so and no later effect names the good again; a repeat overwrites, never sums |
| EffectEngine.Truncate | system_calculator.py:109 | the integer lies within one of the real, on the side toward zero, for either sign |
| EffectEngine.ReducedWorkforce | system_calculator.py:107-109 | for a non-negative workforce and a reduction in [0, 1], the result is between 0 and the workforce |
| EffectEngine.RenameInput | system_calculator.py:113-116 | a present original is renamed with its rate kept, overwriting the new name's entry, and other inputs are kept; an absent original changes nothing |
| EffectEngine.ApplyReplacements | system_calculator.py:111-116 | the replacements applied one after another in dictionary order; it has no contract of its own, and ApplyReplacementsKeepsOthers, ReplacementChain and ReversedReplacementsStopEarly state its properties |
| EffectEngine.ApplyReplacementsKeepsOthers | system_calculator.py:111-116 | an input that no replacement names, as original or as new name, keeps its presence and its rate |
| EffectEngine.ReplacementChain | system_calculator.py:111-116 | one modifier whose effects replace `a` by `b` and then `b` by `c` takes input `a` to `c` with its rate, leaving neither `a` nor `b` |
| EffectEngine.ReversedReplacementsStopEarly | system_calculator.py:111-116 | the same two effects in the other order leave input `a` under `b` with its rate and `c` untouched, because `b` is renamed before it exists |
| EffectEngine.ExtraRate | system_calculator.py:122 | the rate one extra output adds; it has no contract of its own, and ExtraRateIsPerSecond states its unit |
| EffectEngine.ExtraRateIsPerSecond | system_calculator.py:120-122 | for a positive cycle time, the extra rate times the cycle time is the amount per cycle |
| EffectEngine.AddExtraOutputs | system_calculator.py:118-123 | each extra output added to its good's current rate in dictionary order; it has no contract of its own, and the three AddExtraOutputs lemmas below state its properties |
| EffectEngine.AddExtraOutputsKeys | system_calculator.py:118-123 | the output goods gain exactly the extra goods |
| EffectEngine.AddExtraOutputsKeepsOthers | system_calculator.py:118-123 | an output without an extra entry keeps its rate |
| EffectEngine.AddExtraOutputsRate | system_calculator.py:118-123 | each extra good's rate is its previous rate (0.0 if absent) plus its extra rate |
| EffectEngine.NoCyclesNoExtraRate | system_calculator.py:120-123 | with zero cycles per minute, extra outputs change no rate |
| EffectEngine.Step | system_calculator.py:102-123 | one modifier's pass of the loop; it has no contract of its own, and FoldProductivity and FoldWorkforceBounds state its effect on productivity and workforce |
| EffectEngine.Fold | system_calculator.py:102-123 | the loop over the modifiers in order; it has no contract of its own, and the Fold lemmas below state its properties |
| EffectEngine.TotalBonus | system_calculator.py:102-105 | the sum of the modifiers' bonuses; it has no contract of its own, and FoldProductivity and ApplyModifiers state its role |
| EffectEngine.FoldProductivity | system_calculator.py:103-105 | the folded productivity is the start plus the sum of the bonuses |
| EffectEngine.FoldWorkforceBounds | system_calculator.py:100-109 | with every reduction in [0, 1], the workforce truncated after each modifier stays between 0 and where it started |
| EffectEngine.ScaleByOne | system_calculator.py:128-129 | scaling by 1.0 changes nothing |
| EffectEngine.Scale | system_calculator.py:125-129 | the same goods, each rate times the factor: rates grow in proportion, so their ratios are kept; FinishRates and AppliedRatesAreScaled carry this to the effective recipe |
| EffectEngine.Start | system_calculator.py:97-100 | the state before the loop: the base inputs and outputs, productivity 1.0, the base workforce; it has no contract of its own, and NoModifiersKeepBase states it |
| EffectEngine.Unscaled | system_calculator.py:96-123 | the state after the loop over the modifiers, before the final scaling; it has no contract of its own, and AppliedRatesAreScaled and AppliedWorkforceBounds state its properties |
| EffectEngine.Finish | system_calculator.py:125-131 | the productivity and workforce are kept, and inputs and outputs grow in proportion to the productivity over the same goods; FinishRates and AppliedRatesAreScaled state this for rates read with default 0.0 |
| EffectEngine.FinishRates | system_calculator.py:128-131 | after the final scaling, each rate read with default 0.0 is the folded rate times the productivity |
| EffectEngine.ApplyModifiers | system_calculator.py:85-132 | productivity is 1 plus the sum of the modifiers' bonuses; the workforce is the fold's workforce |
| EffectEngine.AppliedRatesAreScaled | system_calculator.py:96-132 | each effective rate is the folded rate times the productivity, over the same goods |
| EffectEngine.NoModifiersKeepBase | system_calculator.py:96-100 | with no modifiers: the base recipe, productivity 1.0 and the base workforce |
| EffectEngine.AppliedWorkforceBounds | system_calculator.py:100-109 | with reductions in [0, 1], the effective workforce is between 0 and the base workforce |
| EffectEngine.FoldKeepsInputs | system_calculator.py:111-116 | modifiers without replacements leave the inputs untouched |
| EffectEngine.AppliedInputsWithoutReplacements | system_calculator.py:111-131 | without replacements, the effective inputs are the base recipe's goods |
| EffectEngine.ScalarFoldKeepsRates | system_calculator.py:102-123 | modifiers with only productivity and workforce effects leave the rates untouched |
| EffectEngine.ScalarModifiersScaleBaseRecipe | system_calculator.py:96-131 | such modifiers scale the base recipe uniformly by the productivity |
| EffectEngine.NoCyclesFoldKeepsOutputRates | system_calculator.py:118-123 | with zero cycles per minute, the fold keeps every output rate |
| EffectEngine.AppliedOutputRate | system_calculator.py:128-131 | an effective output rate is the folded rate times the productivity |
| EffectEngine.NonPositiveCycleTimeNoExtraOutput | system_calculator.py:118-131 | with a non-positive cycle time, every effective output rate is the base rate times the productivity |
| Catalog.Empty | system_calculator.py:20-25 | a calculator with no goods, recipes, buildings or modifiers; it has no contract of its own, and SampleGoodRegistry starts from it |
| Catalog.AddGood | system_calculator.py:27-29 | the good is registered under its name and replaces an earlier one; nothing else changes |
| Catalog.AddRecipe | system_calculator.py:31-33 | the recipe is registered under its name and replaces an earlier one; nothing else changes |
| Catalog.AddBuilding | system_calculator.py:35-37 | the building is registered under its name; a re-registered name keeps its position, a new one goes last |
| Catalog.AddModifier | system_calculator.py:39-41 | the modifier is appended after all earlier ones |
| Catalog.FindBuilding | system_calculator.py:134-147 | none exactly when no building's base recipe makes the good; otherwise the first such building in registry order |
| Catalog.FindBuildingAppend | system_calculator.py:144-147 | the search reaches buildings registered later only when the earlier ones make no producer |
| Catalog.AddBuildingProducer | system_calculator.py:35-37 | registering a new building changes a good's producer only when no earlier building makes the good |
| Selection.Compatible | system_calculator.py:57-61 | exactly the registered modifiers that can apply to the building's tags |
| Selection.FirstNamed | system_calculator.py:68-79 | none exactly when no modifier has the name; otherwise a modifier with that name |
| Selection.AsList | system_calculator.py:68-81 | a found modifier becomes a one-element list and a missing one the empty list; it has no contract of its own, and FindBestModifiers and SelectionPriority state its effect |
| Selection.FindBestModifiers | system_calculator.py:43-83 | at most one modifier, always a registered one that can apply to the building |
| Selection.Names | system_calculator.py:231 | the modifiers' names, in order |
| Selection.FirstNamedCompatible | system_calculator.py:57-67 | looking up a name among the compatible modifiers succeeds exactly when such a modifier is registered |
| Selection.SelectionPriority | system_calculator.py:65-83 | Master Baker for "Old World" buildings; else Electricity for electrifiable buildings; Automation when neither was chosen; else nothing |
| Selection.FirstNamedCompatibleIsFirst | system_calculator.py:57-67 | the lookup finds the first compatible modifier of that name in registration order |
| Selection.SelectedIsFirstOfItsName | system_calculator.py:57-83 | the selected modifier is the first compatible one of its name in registration order |
| ChainResolver.UnknownGoodError | system_calculator.py:166 | the message for an unregistered good; it has no contract of its own, and Resolve states when it is returned |
| ChainResolver.NoBuildingError | system_calculator.py:186 | the message for a good without a producer; it has no contract of its own, and Resolve states when it is returned |
| ChainResolver.NotProducedError | system_calculator.py:204 | the message for a producer whose effective recipe does not make the good; it has no contract of its own, and ResolveOutcome states when it is returned |
| ChainResolver.InputsRankLower | system_calculator.py:210-216 | in an acyclic catalogue, every input the calculation recurses on has a lower rank |
| ChainResolver.Configure | system_calculator.py:188-199 | the recipe, productivity, workforce and modifiers a mode prescribes; it has no contract of its own, and ResolveUsesProducer and BaseModeRunsBaseRecipe state its properties |
| ChainResolver.Count | system_calculator.py:207 | the building count times one building's output rate is the target rate |
| ChainResolver.Demand | system_calculator.py:209-215 | exactly the recipe's inputs are demanded |
| ChainResolver.Build | system_calculator.py:221-235 | a balanced built node: the good and rate echoed, the building's name, workforce type and locations, the configured recipe, productivity, workforce and modifier names, each input demanded at recipe rate times count |
| ChainResolver.BaseRankingSuffices | system_calculator.py:184-216 | a rank that drops along base recipes ensures termination in base mode, and in optimized mode when no modifier replaces an input |
| ChainResolver.Resolve | system_calculator.py:149-235 | unknown good: "not found" error; raw good: terminal node with the rate echoed, count 0, productivity 1.0, nothing below; no producer: "No building found" error; otherwise the good and rate are echoed, a built node is balanced, and its sub-chains cover exactly its inputs |
| ChainResolver.ResolveOutcome | system_calculator.py:200-204 | for a registered non-raw good with a producer, a built node comes back exactly when the effective output rate is positive; otherwise the "does not produce" error names the producer |
| ChainResolver.ResolveUsesProducer | system_calculator.py:184-199 | a built node is run by the first producer in registry order, configured as its mode prescribes |
| ChainResolver.BaseModeRunsBaseRecipe | system_calculator.py:194-199 | in base mode a built node runs the base recipe at productivity 1.0 with the base workforce and no modifiers |
| ChainResolver.ResolveSubChains | system_calculator.py:210-216 | each sub-chain is the calculation for its input at exactly the rate demanded of it |
| ChainResolver.SubChainsRankLower | system_calculator.py:210-216 | every sub-chain is for a good of lower rank |
| ChainResolver.ResolveAllBalanced | system_calculator.py:206-229 | at every depth, a built node's count times its effective output rate is its target rate, each input is demanded at recipe rate times count, and the total workforce is per-building workforce times count |
| ChainResolver.BaseModeUnmodified | system_calculator.py:194-199 | in base mode no node anywhere in the tree has a productivity other than 1.0 or any modifier |
| ChainResolver.ResolveIgnoresRecipeRegistry | system_calculator.py:31-33 | the recipe registry is never read: replacing it changes no resolved tree |
| ChainResolver.ResolveIgnoresRank | system_calculator.py:149-235 | the calculation depends on no ranking: two ranks that both witness termination give the same tree |
| Demo.SampleRegistration | main.py:79-163 | registering the six goods, then the three buildings and the three modifiers one at a time, from an empty catalogue, yields the sample catalogue |
| Demo.SampleGoodRegistry | main.py:79-80 | registering the six goods one at a time fills the goods registry and nothing else |
| Demo.SampleRegistrationFrom | main.py:99-163 | from a catalogue holding only the sample goods, the buildings and modifiers registered in order give the sample catalogue |
| Demo.SampleProducers | main.py:99-134 | the mill makes flour, the bakery bread, the factory chocolate |
| Demo.SampleAcyclic | main.py:83-97 | the sample recipe graph is acyclic, so the calculation terminates in both modes |
| Demo.SampleSelections | main.py:99-163 | Master Baker for the mill and the bakery; Electricity for the chocolate factory |
| Demo.AutomationFallback | system_calculator.py:77-81 | a building tagged only "Production" that cannot be electrified gets Automation |
| Demo.ChocolateBaseNode | main.py:176-187 | base mode, 8.0 chocolate per minute: 8 factories, 12.0 cocoa and 4.0 sugar demanded, 160 workers in total |
| Demo.ChocolateInBaseMode | main.py:176-187 | both inputs of that chain resolve as raw terminal nodes at 12.0 and 4.0 |
| Demo.ElectrifiedFactory | main.py:137-141 | Electricity on the factory: productivity 1.5, every rate times 1.5, workforce unchanged at 20 |
| Demo.ChocolateOptimizedNode | main.py:192-195 | optimized mode, 8.0 chocolate per minute: Electricity is selected, 16/3 factories, 320/3 workers in total |
| Demo.ChocolateOptimizedInputs | main.py:192-195 | the electrified factories still demand 12.0 cocoa and 4.0 sugar |
| Demo.MasterBakerProductivity | main.py:143-151 | Master Baker gives productivity 1.25 |
| Demo.MasterBakerWorkforce | main.py:143-151 | Master Baker cuts the bakery's 15 workers to `int(10.5)` = 10 |
| Demo.MasterBakerBread | system_calculator.py:118-131 | the bakery's bread under Master Baker is (0.8 + 1 × 4/3 / 60) × 1.25 |
| Demo.WorkforceTruncatedPerModifier | system_calculator.py:107-109 | truncating after each modifier makes the order matter: 15 cut by 30% then by 50% gives 5, the other order gives 4 |
| Demo.RepeatedExtraOutputReplaces | modifier.py:86-93 | two extra-output effects for one good in one modifier: the later amount replaces the earlier |

## Left out

- Floating point: rates are exact reals. IEEE rounding, and the "approximately equal" comparisons it would need, are not modelled.
- The `__repr__` methods, and the string form of the effective recipe that a built node stores, are not modelled. The node carries the `Recipe` value itself.
- The plain getters `get_base_workforce`, `get_workforce_type` and `get_locations` (production_building.py:80-105) return constructor fields. They are the datatype's fields `workforce`, `workforceType` and `locations`, so no function models them.
- Dictionary iteration order of recipe maps is not modelled (`RateMap` is a `map`). It only affects the order of keys in the result. For the effect dictionaries and the building registry, iteration order changes results, so those are ordered lists.
- Python's `hash` of a string is a parameter (`stringHash`) of `Goods.Hash`.
- Effects as Python dictionaries with a `type` string: the datatype replaces them. A missing `value` is the constructor argument `0.0`, a missing good name `""`, and a missing amount `0`.
- Cycles in the recipe graph: the source recurses on every input without checking for cycles. On a cycle, CPython stops at its recursion limit with an uncaught `RecursionError`. The model represents neither the recursion limit nor the exception.
- ChainResolver.Resolve requires `Acyclic`, and `Acyclic` quantifies over every registered good. A catalogue with a cycle that a request never reaches is therefore outside the model, although the source terminates on that request.
- Shared sub-goods are resolved once per path, as in the source; no memoisation is modelled.
- The printing and summing helpers of main.py are not modelled. Only its sample catalogue is used, in `Demo`.
- ChainResolver.Resolve: its contract describes a built node through `Balanced` and the sub-chain keys. The remaining fields are stated by ResolveUsesProducer and ResolveSubChains. The "does not produce" error branch is stated only by ResolveOutcome.
- The workforce is truncated toward zero by `int()` after each modifier (`Truncate`); it is not floored.
- Within one modifier, a repeated extra-output good or a second replacement of the same original overwrites the earlier entry; amounts are never summed.
- The extra-output rate is modelled as the code writes it: `amount * cycles_per_minute / 60.0`. This is the amount per cycle divided by the cycle time in seconds (`ExtraRateIsPerSecond`), although the source comment calls it tons per minute. No change is proposed, because the intended unit cannot be settled from the code.

=== FILE: building.dfy ===
/**
  Production buildings: one base recipe, a cycle time, targeting tags and a
  workforce requirement. The plain getters of the building (base workforce,
  workforce type, locations) are the datatype's fields.
 */
module Buildings {
  import opened Recipes

  datatype Building = Building(
    name: string,
    baseRecipe: Recipe,
    cycleTimeSeconds: int,
    tags: seq<string>,
    isElectrifiable: bool,
    workforce: int,
    workforceType: string,
    locations: seq<string>)

  /** Output rate of `g` under the base recipe. */
  function BaseOutputRate(b: Building, g: string): (r: real)
    ensures g in b.baseRecipe.outputs ==> r == b.baseRecipe.outputs[g]
    ensures g !in b.baseRecipe.outputs ==> r == 0.0
  {
    OutputRate(b.baseRecipe, g)
  }

  /** Input rate of `g` under the base recipe. */
  function BaseInputRate(b: Building, g: string): (r: real)
    ensures g in b.baseRecipe.inputs ==> r == b.baseRecipe.inputs[g]
    ensures g !in b.baseRecipe.inputs ==> r == 0.0
  {
    InputRate(b.baseRecipe, g)
  }

  /**
    Production cycles per minute: the cycles that fit into 60 seconds, and
    0.0 for a cycle time that is not positive.
   */
  function CyclesPerMinute(b: Building): (r: real)
    ensures b.cycleTimeSeconds > 0 ==> r > 0.0 && r * b.cycleTimeSeconds as real == 60.0
    ensures b.cycleTimeSeconds <= 0 ==> r == 0.0
  {
    if b.cycleTimeSeconds <= 0 then 0.0 else 60.0 / b.cycleTimeSeconds as real
  }
}

=== FILE: catalog.dfy ===
/**
  The catalogue the resolver reads: goods by name, buildings by name in
  registration order, and modifiers in registration order.
 */
module Catalog {
  import opened Wrappers
  import opened OrderedDict
  import opened Goods
  import opened Recipes
  import opened Buildings
  import opened Modifiers

  datatype Catalog = Catalog(
    goods: map<string, Good>,
    recipes: map<string, Recipe>,
    buildings: Dict<string, Building>,
    modifiers: seq<Modifier>)

  /** A catalogue with nothing registered. */
  function Empty(): (c: Catalog) {
    Catalog(map[], map[], [], [])
  }

  /** Registers a good under its name, replacing a good of the same name. */
  function AddGood(c: Catalog, g: Good): (r: Catalog)
    ensures r.goods.Keys == c.goods.Keys + {g.name} && r.goods[g.name] == g
    ensures forall n :: n in c.goods && n != g.name ==> r.goods[n] == c.goods[n]
    ensures r.recipes == c.recipes && r.buildings == c.buildings && r.modifiers == c.modifiers
  {
    c.(goods := c.goods[g.name := g])
  }

  /** Registers a recipe under `name`, replacing a recipe of the same name. */
  function AddRecipe(c: Catalog, name: string, recipe: Recipe): (r: Catalog)
    ensures r.recipes.Keys == c.recipes.Keys + {name} && r.recipes[name] == recipe
    ensures forall n :: n in c.recipes && n != name ==> r.recipes[n] == c.recipes[n]
    ensures r.goods == c.goods && r.buildings == c.buildings && r.modifiers == c.modifiers
  {
    c.(recipes := c.recipes[name := recipe])
  }

  /**
    Registers a building under its name. Re-registering a name replaces the
    building but keeps the name's original position; a new name goes last.
   */
  function AddBuilding(c: Catalog, b: Building): (r: Catalog)
    ensures Get(r.buildings, b.name) == Some(b)
    ensures forall n :: n != b.name ==> Get(r.buildings, n) == Get(c.buildings, n)
    ensures Keys(r.buildings) == if b.name in Keys(c.buildings) then Keys(c.buildings) else Keys(c.buildings) + [b.name]
    ensures r.goods == c.goods && r.recipes == c.recipes && r.modifiers == c.modifiers
  {
    PutKeyOrder(c.buildings, b.name, b);
    c.(buildings := Put(c.buildings, b.name, b))
  }

  /** Registers a modifier after all modifiers registered before it. */
  function AddModifier(c: Catalog, m: Modifier): (r: Catalog)
    ensures |r.modifiers| == |c.modifiers| + 1 && r.modifiers[|c.modifiers|] == m
    ensures r.modifiers[..|c.modifiers|] == c.modifiers
    ensures r.goods == c.goods && r.recipes == c.recipes && r.buildings == c.buildings
  {
    c.(modifiers := c.modifiers + [m])
  }

  /** Position `i` holds the first building, in registry order, whose base recipe makes `g`. */
  ghost predicate FirstProducerAt(bs: Dict<string, Building>, g: string, i: int) {
    && 0 <= i < |bs|
    && BaseOutputRate(bs[i].1, g) > 0.0
    && forall j :: 0 <= j < i ==> BaseOutputRate(bs[j].1, g) <= 0.0
  }

  /**
    The producer of `g`: the first building in registry order whose BASE
    recipe outputs `g` at a positive rate; none when no building does.
   */
  function FindBuilding(bs: Dict<string, Building>, g: string): (r: Option<Building>)
    ensures r.None? <==> forall i :: 0 <= i < |bs| ==> BaseOutputRate(bs[i].1, g) <= 0.0
    ensures r.Some? ==> exists i :: FirstProducerAt(bs, g, i) && bs[i].1 == r.value
  {
    if |bs| == 0 then None
    else if BaseOutputRate(bs[0].1, g) > 0.0 then
      assert FirstProducerAt(bs, g, 0);
      Some(bs[0].1)
    else
      var r := FindBuilding(bs[1..], g);
      assert forall i :: 0 < i < |bs| ==> bs[i] == bs[1..][i - 1];
      assert r.Some? ==> exists i :: FirstProducerAt(bs, g, i) && bs[i].1 == r.value by {
        if r.Some? {
          var i :| FirstProducerAt(bs[1..], g, i) && bs[1..][i].1 == r.value;
          assert FirstProducerAt(bs, g, i + 1);
        }
      }
      r
  }

  /** Searching a registry extended at the end only reaches the extension when the prefix has no producer. */
  lemma {:induction false} FindBuildingAppend(bs: Dict<string, Building>, extra: Dict<string, Building>, g: string)
    ensures FindBuilding(bs + extra, g) ==
              if FindBuilding(bs, g).Some? then FindBuilding(bs, g) else FindBuilding(extra, g)
    decreases |bs|
  {
    if |bs| == 0 {
      assert bs + extra == extra;
    } else {
      assert (bs + extra)[0] == bs[0];
      assert (bs + extra)[1..] == bs[1..] + extra;
      FindBuildingAppend(bs[1..], extra, g);
    }
  }

  /**
    Registering a building under a new name changes the producer of `g` only
    when no building registered earlier makes `g`.
   */
  lemma AddBuildingProducer(c: Catalog, b: Building, g: string)
    requires b.name !in Keys(c.buildings)
    ensures FindBuilding(AddBuilding(c, b).buildings, g) ==
              if FindBuilding(c.buildings, g).Some? then FindBuilding(c.buildings, g)
              else if BaseOutputRate(b, g) > 0.0 then Some(b)
              else None
  {
    PutNewKeyAppends(c.buildings, b.name, b);
    FindBuildingAppend(c.buildings, [(b.name, b)], g);
    assert [(b.name, b)][1..] == [];
  }
}

=== FILE: demo.dfy ===
/**
  The sample catalogue of the repository's demonstration (bread from grain
  via flour, chocolate from cocoa and sugar) and what the model computes
  for it.
 */
module Demo {
  import opened Wrappers
  import opened OrderedDict
  import opened Goods
  import opened Recipes
  import opened Buildings
  import opened Modifiers
  import opened EffectEngine
  import opened Catalog
  import opened Selection
  import opened ChainResolver

  function Mill(): Building {
    Building("Mill", Recipe(map["Grain" := 2.0], map["Flour" := 1.5]), 30,
      ["Production", "Old World"], true, 10, "Workers", ["Old World"])
  }

  function Bakery(): Building {
    Building("Bakery", Recipe(map["Flour" := 1.0], map["Bread" := 0.8]), 45,
      ["Production", "Old World"], true, 15, "Artisans", ["Old World"])
  }

  function ChocolateFactory(): Building {
    Building("Chocolate Factory", Recipe(map["Cocoa" := 1.5, "Sugar" := 0.5], map["Chocolate" := 1.0]), 60,
      ["Production", "New World"], true, 20, "Engineers", ["New World", "Old World"])
  }

  function Electricity(): Modifier {
    Modifier("Electricity", ["Production"], [Productivity(0.5)])
  }

  function MasterBaker(): Modifier {
    Modifier("Master Baker", ["Old World"], [Productivity(0.25), ExtraOutput("Bread", 1), WorkforceReduction(0.3)])
  }

  function Automation(): Modifier {
    Modifier("Automation", ["Production"], [WorkforceReduction(0.5)])
  }

  /** The catalogue after registering the six goods, three buildings and three modifiers in order. */
  function Sample(): Catalog {
    Catalog(
      map["Grain" := Good("Grain", true), "Flour" := Good("Flour", false), "Bread" := Good("Bread", false),
          "Cocoa" := Good("Cocoa", true), "Sugar" := Good("Sugar", true), "Chocolate" := Good("Chocolate", false)],
      map[],
      [("Mill", Mill()), ("Bakery", Bakery()), ("Chocolate Factory", ChocolateFactory())],
      [Electricity(), MasterBaker(), Automation()])
  }

  /** Raw goods rank 0, flour and chocolate 1, bread 2. */
  function SampleRank(g: string): nat {
    if g == "Bread" then 2 else if g == "Flour" || g == "Chocolate" then 1 else 0
  }

  /** The ranks of the sample goods. */
  lemma SampleRanks()
    ensures SampleRank("Grain") == 0 && SampleRank("Cocoa") == 0 && SampleRank("Sugar") == 0
    ensures SampleRank("Flour") == 1 && SampleRank("Chocolate") == 1 && SampleRank("Bread") == 2
  {
  }

  /** The six sample goods, registered one at a time in the order of the sample. */
  function SampleGoodsRegistered(): (c: Catalog) {
    var raw := AddGood(AddGood(AddGood(Empty(), Good("Grain", true)), Good("Flour", false)), Good("Bread", false));
    AddGood(AddGood(AddGood(raw, Good("Cocoa", true)), Good("Sugar", true)), Good("Chocolate", false))
  }

  /** Registering the sample data one item at a time yields the sample catalogue. */
  lemma SampleRegistration()
    ensures
      var withBuildings := AddBuilding(AddBuilding(AddBuilding(SampleGoodsRegistered(), Mill()), Bakery()), ChocolateFactory());
      AddModifier(AddModifier(AddModifier(withBuildings, Electricity()), MasterBaker()), Automation()) == Sample()
  {
    SampleGoodRegistry();
    SampleRegistrationFrom(SampleGoodsRegistered());
  }

  /** From a catalogue holding only the sample goods, registering the buildings and modifiers yields the sample. */
  lemma SampleRegistrationFrom(c: Catalog)
    requires c == Empty().(goods := Sample().goods)
    ensures
      var withBuildings := AddBuilding(AddBuilding(AddBuilding(c, Mill()), Bakery()), ChocolateFactory());
      AddModifier(AddModifier(AddModifier(withBuildings, Electricity()), MasterBaker()), Automation()) == Sample()
  {
    SampleBuildingRegistry();
  }

  /** Registering the six goods fills the goods registry of the sample and nothing else. */
  lemma SampleGoodRegistry()
    ensures SampleGoodsRegistered() == Empty().(goods := Sample().goods)
  {
  }

  /** Registering the three buildings in order lists them in that order. */
  lemma SampleBuildingRegistry()
    ensures Put(Put(Put([], "Mill", Mill()), "Bakery", Bakery()), "Chocolate Factory", ChocolateFactory()) ==
              Sample().buildings
  {
    var d1 := Put([], "Mill", Mill());
    PutNewKeyAppends([], "Mill", Mill());
    var d2 := Put(d1, "Bakery", Bakery());
    PutNewKeyAppends(d1, "Bakery", Bakery());
    PutNewKeyAppends(d2, "Chocolate Factory", ChocolateFactory());
  }

  /** The producers found in registry order. */
  lemma SampleProducers()
    ensures FindBuilding(Sample().buildings, "Flour") == Some(Mill())
    ensures FindBuilding(Sample().buildings, "Bread") == Some(Bakery())
    ensures FindBuilding(Sample().buildings, "Chocolate") == Some(ChocolateFactory())
  {
  }

  /** Flour, bread and chocolate are the sample's only goods that are not raw. */
  lemma SampleProducedGoods(g: string)
    requires g in Sample().goods && !Sample().goods[g].isRaw
    ensures g == "Flour" || g == "Bread" || g == "Chocolate"
  {
  }

  /** Each input of a sample producer's base recipe ranks below the good it makes. */
  lemma SampleInputRanksLower(good: string, b: Building, input: string)
    requires (good, b) in {("Flour", Mill()), ("Bread", Bakery()), ("Chocolate", ChocolateFactory())}
    requires input in b.baseRecipe.inputs
    ensures SampleRank(input) < SampleRank(good)
  {
    SampleRanks();
    if good == "Flour" {
      assert input == "Grain";
    } else if good == "Bread" {
      assert input == "Flour";
    } else {
      assert input == "Cocoa" || input == "Sugar";
    }
  }

  /** The sample recipe graph is ranked, so the resolver terminates on it in both modes. */
  lemma SampleRanked()
    ensures RankedByBaseRecipes(Sample(), SampleRank)
  {
    var c := Sample();
    forall good, input |
      && good in c.goods && !c.goods[good].isRaw
      && FindBuilding(c.buildings, good).Some?
      && input in FindBuilding(c.buildings, good).value.baseRecipe.inputs
      ensures SampleRank(input) < SampleRank(good)
    {
      SampleProducedGoods(good);
      SampleProducers();
      SampleInputRanksLower(good, FindBuilding(c.buildings, good).value, input);
    }
  }

  /** The resolver terminates on the sample catalogue in both modes. */
  lemma SampleAcyclic(optimized: bool)
    ensures Acyclic(Sample(), optimized, SampleRank)
  {
    SampleRanked();
    BaseRankingSuffices(Sample(), optimized, SampleRank);
  }

  /** The selection for each sample building: Master Baker in the Old World, Electricity elsewhere. */
  lemma SampleSelections()
    ensures FindBestModifiers(Sample().modifiers, Mill()) == [MasterBaker()]
    ensures FindBestModifiers(Sample().modifiers, Bakery()) == [MasterBaker()]
    ensures FindBestModifiers(Sample().modifiers, ChocolateFactory()) == [Electricity()]
  {
    OldWorldSelection(Mill());
    OldWorldSelection(Bakery());
    NewWorldSelection();
  }

  /** A building tagged "Production" and "Old World" gets Master Baker. */
  lemma OldWorldSelection(b: Building)
    requires b.tags == ["Production", "Old World"]
    ensures FindBestModifiers(Sample().modifiers, b) == [MasterBaker()]
  {
  }

  /** The chocolate factory, tagged "Production" and "New World" and electrifiable, gets Electricity. */
  lemma NewWorldSelection()
    ensures FindBestModifiers(Sample().modifiers, ChocolateFactory()) == [Electricity()]
  {
  }

  /** A building tagged only "Production" that cannot be electrified falls back to Automation. */
  lemma AutomationFallback(b: Building)
    requires b.tags == ["Production"] && !b.isElectrifiable
    ensures FindBestModifiers(Sample().modifiers, b) == [Automation()]
  {
  }

  /** Eight chocolate factories running the base recipe demand 12.0 cocoa and 4.0 sugar. */
  lemma FactoryDemand()
    ensures Demand(ChocolateFactory().baseRecipe, 8.0) == map["Cocoa" := 12.0, "Sugar" := 4.0]
  {
    var d := Demand(ChocolateFactory().baseRecipe, 8.0);
    assert d.Keys == {"Cocoa", "Sugar"};
  }

  /** Base mode, 8.0 chocolate per minute: eight factories, demanding 12.0 cocoa and 4.0 sugar per minute. */
  lemma ChocolateBaseNode()
    ensures Acyclic(Sample(), false, SampleRank)
    ensures var r := Resolve(Sample(), "Chocolate", 8.0, false, SampleRank);
            && r.Produced? && r.building == "Chocolate Factory"
            && r.count == 8.0 && r.productivity == 1.0 && r.modifiers == []
            && r.inputs == map["Cocoa" := 12.0, "Sugar" := 4.0]
            && r.totalWorkforce == 160.0
  {
    SampleAcyclic(false);
    SampleProducers();
    var c := Sample();
    var b := ChocolateFactory();
    var r := Resolve(c, "Chocolate", 8.0, false, SampleRank);
    assert Configure(c, b, false).recipe == b.baseRecipe;
    assert OutputRate(b.baseRecipe, "Chocolate") == 1.0;
    ResolveOutcome(c, "Chocolate", 8.0, false, SampleRank);
    assert r.Produced?;
    ResolveUsesProducer(c, "Chocolate", 8.0, false, SampleRank);
    assert r.count == 8.0 by {
      assert r.count * 1.0 == 8.0;
    }
    assert r.inputs == map["Cocoa" := 12.0, "Sugar" := 4.0] by {
      FactoryDemand();
    }
  }

  /** A raw sample good resolves, in either mode and at any rate, to a terminal node. */
  lemma RawSampleGood(g: string, rate: real, optimized: bool)
    requires g == "Grain" || g == "Cocoa" || g == "Sugar"
    ensures Acyclic(Sample(), optimized, SampleRank)
    ensures Resolve(Sample(), g, rate, optimized, SampleRank) == Terminal(g, rate, 0.0, 1.0, [], map[], map[])
  {
    SampleAcyclic(optimized);
  }

  /** Both inputs of the base-mode chocolate chain resolve as raw terminal nodes at the demanded rates. */
  lemma ChocolateInBaseMode()
    ensures Acyclic(Sample(), false, SampleRank)
    ensures var r := Resolve(Sample(), "Chocolate", 8.0, false, SampleRank);
            && r.Produced?
            && r.sub == map["Cocoa" := Terminal("Cocoa", 12.0, 0.0, 1.0, [], map[], map[]),
                            "Sugar" := Terminal("Sugar", 4.0, 0.0, 1.0, [], map[], map[])]
  {
    ChocolateBaseNode();
    var c := Sample();
    var r := Resolve(c, "Chocolate", 8.0, false, SampleRank);
    assert r.sub.Keys == {"Cocoa", "Sugar"};
    assert r.sub["Cocoa"] == Terminal("Cocoa", 12.0, 0.0, 1.0, [], map[], map[]) by {
      ResolveSubChains(c, "Chocolate", 8.0, false, SampleRank);
      RawSampleGood("Cocoa", 12.0, false);
    }
    assert r.sub["Sugar"] == Terminal("Sugar", 4.0, 0.0, 1.0, [], map[], map[]) by {
      ResolveSubChains(c, "Chocolate", 8.0, false, SampleRank);
      RawSampleGood("Sugar", 4.0, false);
    }
    TwoEntries(r.sub, "Cocoa", "Sugar");
  }

  /** A map with exactly two keys is the display of its two entries. */
  lemma TwoEntries<V>(m: map<string, V>, a: string, b: string)
    requires m.Keys == {a, b}
    ensures m == map[a := m[a], b := m[b]]
  {
  }

  /** Electricity alone gives a productivity of 1.5. */
  lemma ElectricityProductivity(b: Building)
    ensures ApplyModifiers(b, [Electricity()]).productivity == 1.5
  {
    assert TotalBonus([Electricity()]) == 0.5;
  }

  /** Electricity scales the factory's inputs by 1.5. */
  lemma ElectrifiedFactoryInputs()
    ensures ApplyModifiers(ChocolateFactory(), [Electricity()]).recipe.inputs == map["Cocoa" := 2.25, "Sugar" := 0.75]
  {
    var b := ChocolateFactory();
    ElectricityProductivity(b);
    ScalarModifiersScaleBaseRecipe(b, [Electricity()]);
    assert ApplyModifiers(b, [Electricity()]).recipe.inputs.Keys == {"Cocoa", "Sugar"};
  }

  /** Electricity scales the factory's output by 1.5. */
  lemma ElectrifiedFactoryOutputs()
    ensures ApplyModifiers(ChocolateFactory(), [Electricity()]).recipe.outputs == map["Chocolate" := 1.5]
  {
    var b := ChocolateFactory();
    ElectricityProductivity(b);
    ScalarModifiersScaleBaseRecipe(b, [Electricity()]);
    assert ApplyModifiers(b, [Electricity()]).recipe.outputs.Keys == {"Chocolate"};
  }

  /** Electricity raises the factory's productivity to 1.5 and scales every rate by it; the workforce stays 20. */
  lemma ElectrifiedFactory()
    ensures ApplyModifiers(ChocolateFactory(), [Electricity()]) ==
              Applied(Recipe(map["Cocoa" := 2.25, "Sugar" := 0.75], map["Chocolate" := 1.5]), 1.5, 20)
  {
    ElectricityProductivity(ChocolateFactory());
    ElectrifiedFactoryInputs();
    ElectrifiedFactoryOutputs();
    assert Unscaled(ChocolateFactory(), [Electricity()]).workforce == ReducedWorkforce(20, 0.0);
  }

  /** In optimized mode the factory runs electrified. */
  lemma FactoryOptimizedSetup()
    ensures Configure(Sample(), ChocolateFactory(), true) ==
              Setup(Recipe(map["Cocoa" := 2.25, "Sugar" := 0.75], map["Chocolate" := 1.5]), 1.5, 20, [Electricity()])
  {
    SampleSelections();
    ElectrifiedFactory();
  }

  /**
    Optimized mode, 8.0 chocolate per minute: Electricity is selected, the
    productivity is 1.5, so 16/3 factories run, each with the unchanged
    workforce of 20.
   */
  lemma ChocolateOptimizedNode()
    ensures Acyclic(Sample(), true, SampleRank)
    ensures var r := Resolve(Sample(), "Chocolate", 8.0, true, SampleRank);
            && r.Produced? && r.modifiers == ["Electricity"] && r.productivity == 1.5
            && r.count == 16.0 / 3.0
            && r.workforcePerBuilding == 20 && r.totalWorkforce == 320.0 / 3.0
            && r.recipe.inputs == map["Cocoa" := 2.25, "Sugar" := 0.75]
  {
    SampleAcyclic(true);
    SampleProducers();
    FactoryOptimizedSetup();
    var c := Sample();
    var r := Resolve(c, "Chocolate", 8.0, true, SampleRank);
    ResolveOutcome(c, "Chocolate", 8.0, true, SampleRank);
    ResolveUsesProducer(c, "Chocolate", 8.0, true, SampleRank);
    assert OutputRate(r.recipe, "Chocolate") == 1.5;
    assert r.count == 16.0 / 3.0 by {
      assert r.count * 1.5 == 8.0;
    }
  }

  /** The electrified factories demand the same 12.0 cocoa and 4.0 sugar as in base mode. */
  lemma ChocolateOptimizedInputs()
    ensures Acyclic(Sample(), true, SampleRank)
    ensures var r := Resolve(Sample(), "Chocolate", 8.0, true, SampleRank);
            r.Produced? && r.inputs == map["Cocoa" := 12.0, "Sugar" := 4.0]
  {
    ChocolateOptimizedNode();
    var r := Resolve(Sample(), "Chocolate", 8.0, true, SampleRank);
    assert Balanced(r);
    DemandOfElectrifiedFactories(r);
  }

  /** A balanced node running the electrified recipe with 16/3 factories demands 12.0 cocoa and 4.0 sugar. */
  lemma DemandOfElectrifiedFactories(n: Node)
    requires n.Produced? && Balanced(n)
    requires n.recipe.inputs == map["Cocoa" := 2.25, "Sugar" := 0.75] && n.count == 16.0 / 3.0
    ensures n.inputs == map["Cocoa" := 12.0, "Sugar" := 4.0]
  {
    assert n.inputs.Keys == {"Cocoa", "Sugar"};
  }

  /** Master Baker raises the productivity of any building to 1.25. */
  lemma MasterBakerProductivity(b: Building)
    ensures ApplyModifiers(b, [MasterBaker()]).productivity == 1.25
  {
    assert TotalBonus([MasterBaker()]) == 0.25;
  }

  /** Master Baker cuts the bakery's workforce of 15 by 30%, truncated to 10. */
  lemma MasterBakerWorkforce()
    ensures ApplyModifiers(Bakery(), [MasterBaker()]).workforce == 10
  {
    assert WorkforceReductionOf(MasterBaker()) == 0.3;
    assert Unscaled(Bakery(), [MasterBaker()]).workforce == ReducedWorkforce(15, 0.3);
  }

  /**
    Master Baker's extra bread: one per 45-second cycle is 4/3 cycles per
    minute, times 1 and divided by 60, added to 0.8 before the 1.25 scaling.
   */
  lemma MasterBakerBread()
    ensures OutputRate(ApplyModifiers(Bakery(), [MasterBaker()]).recipe, "Bread") == (0.8 + 1.0 * (4.0 / 3.0) / 60.0) * 1.25
  {
    var b := Bakery();
    var m := MasterBaker();
    assert CyclesPerMinute(b) == 4.0 / 3.0;
    MasterBakerExtras();
    var s := Unscaled(b, [m]);
    FoldOne(Start(b), m, CyclesPerMinute(b));
    assert s.outputs == AddExtraOutputs(b.baseRecipe.outputs, [("Bread", 1)], 4.0 / 3.0);
    assert RateOf(s.outputs, "Bread") == 0.8 + 1.0 * (4.0 / 3.0) / 60.0 by {
      UniqueKeysOfOne("Bread", 1);
      AddExtraOutputsRate(b.baseRecipe.outputs, [("Bread", 1)], 4.0 / 3.0, 0);
    }
    MasterBakerProductivity(b);
    AppliedOutputRate(b, [m], "Bread", 0.8 + 1.0 * (4.0 / 3.0) / 60.0);
  }

  /** Master Baker's only extra output is one bread per cycle. */
  lemma MasterBakerExtras()
    ensures ExtraOutputs(MasterBaker()) == [("Bread", 1)]
  {
    var es := MasterBaker().effects;
    assert ExtraOutputPick(es[2]).None?;
    assert Collect(es, ExtraOutputPick) == Collect(es[..2], ExtraOutputPick);
    assert es[..2][..1] == [Productivity(0.25)];
    CollectNothing([Productivity(0.25)], ExtraOutputPick);
    assert Collect(es[..2], ExtraOutputPick) == Put([], "Bread", 1);
    PutNewKeyAppends([], "Bread", 1);
  }

  /** Folding a single modifier is one step. */
  lemma FoldOne(s: Draft, m: Modifier, cyclesPerMinute: real)
    ensures Fold(s, [m], cyclesPerMinute) == Step(s, m, cyclesPerMinute)
  {
    assert [m][1..] == [];
  }

  /** A one-entry dictionary has distinct keys. */
  lemma UniqueKeysOfOne(k: string, v: int)
    ensures UniqueKeys([(k, v)])
  {
  }

  /** A modifier that only cuts the workforce by `value`. */
  function Cut(value: real): Modifier {
    Modifier("Cut", ["Production"], [WorkforceReduction(value)])
  }

  /**
    The workforce is truncated after each modifier, so the order matters:
    15 cut by 30% then 50% gives 10 then 5, but cut by 50% then 30% gives 7
    then 4.
   */
  lemma WorkforceTruncatedPerModifier()
    ensures ApplyModifiers(Bakery(), [Cut(0.3), Cut(0.5)]).workforce == 5
    ensures ApplyModifiers(Bakery(), [Cut(0.5), Cut(0.3)]).workforce == 4
  {
    var b := Bakery();
    assert WorkforceReductionOf(Cut(0.3)) == 0.3 && WorkforceReductionOf(Cut(0.5)) == 0.5;
    assert ReducedWorkforce(15, 0.3) == 10 && ReducedWorkforce(10, 0.5) == 5;
    assert ReducedWorkforce(15, 0.5) == 7 && ReducedWorkforce(7, 0.3) == 4;
  }

  /** Two extra-output effects for the same good within one modifier: the later amount replaces the earlier. */
  lemma RepeatedExtraOutputReplaces()
    ensures ExtraOutputs(Modifier("Ovens", ["Old World"], [ExtraOutput("Bread", 1), ExtraOutput("Bread", 2)])) == [("Bread", 2)]
  {
    var es := [ExtraOutput("Bread", 1), ExtraOutput("Bread", 2)];
    assert es[..1] == [ExtraOutput("Bread", 1)] && es[..1][..0] == [];
    assert Collect(es[..1], ExtraOutputPick) == [("Bread", 1)];
    PutPresentKeyInPlace([("Bread", 1)], "Bread", 2, 0);
  }
}

=== FILE: effects.dfy ===
/**
  The effect-composition engine: folds an ordered list of modifiers over a
  copy of a building's base recipe, then scales every rate by the final
  productivity in one pass.
 */
module EffectEngine {
  import opened Wrappers
  import opened OrderedDict
  import opened Recipes
  import opened Buildings
  import opened Modifiers

  /** The state of the fold: rates before productivity scaling, productivity, workforce. */
  datatype Draft = Draft(inputs: RateMap, outputs: RateMap, productivity: real, workforce: int)

  /** The outcome of applying modifiers: effective recipe, total productivity, workforce. */
  datatype Applied = Applied(recipe: Recipe, productivity: real, workforce: int)

  /** Conversion of a real to an integer by truncation toward zero. */
  function Truncate(x: real): (n: int)
    ensures 0.0 <= x ==> 0 <= n && n as real <= x < n as real + 1.0
    ensures x < 0.0 ==> n <= 0 && n as real - 1.0 < x <= n as real
  {
    if x >= 0.0 then x.Floor else -((-x).Floor)
  }

  /**
    The workforce after one modifier's reduction, truncated at once. For a
    non-negative workforce and a reduction in [0, 1] it neither goes below
    zero nor grows.
   */
  function ReducedWorkforce(workforce: int, reduction: real): (r: int)
    ensures 0 <= workforce && 0.0 <= reduction <= 1.0 ==> 0 <= r <= workforce
  {
    var x := workforce as real * (1.0 - reduction);
    assert 0 <= workforce && 0.0 <= reduction <= 1.0 ==> 0.0 <= x <= workforce as real by {
      if 0 <= workforce && 0.0 <= reduction <= 1.0 {
        NonNegativeProduct(workforce as real, reduction);
        NonNegativeProduct(workforce as real, 1.0 - reduction);
        assert x == workforce as real - workforce as real * reduction;
      }
    }
    Truncate(x)
  }

  /** The product of two non-negative reals is non-negative. */
  lemma NonNegativeProduct(x: real, y: real)
    requires 0.0 <= x && 0.0 <= y
    ensures 0.0 <= x * y
  {
  }

  /**
    Renames input `original` to `replacement`, keeping its rate and
    overwriting any entry already under `replacement`; nothing happens when
    `original` is not an input.
   */
  function RenameInput(inputs: RateMap, original: string, replacement: string): (r: RateMap)
    ensures original !in inputs ==> r == inputs
    ensures original in inputs ==>
              && r.Keys == inputs.Keys - {original} + {replacement}
              && r[replacement] == inputs[original]
              && forall g :: g in inputs && g != original && g != replacement ==> r[g] == inputs[g]
  {
    if original in inputs then (inputs - {original})[replacement := inputs[original]] else inputs
  }

  /** Applies the replacements one after another, in dictionary order; later ones see earlier renames. */
  function ApplyReplacements(inputs: RateMap, replacements: Dict<string, string>): (r: RateMap)
    decreases |replacements|
  {
    if |replacements| == 0 then inputs
    else ApplyReplacements(RenameInput(inputs, replacements[0].0, replacements[0].1), replacements[1..])
  }

  /** An input that no replacement renames, and that no replacement renames to, keeps its presence and rate. */
  lemma {:induction false} ApplyReplacementsKeepsOthers(inputs: RateMap, replacements: Dict<string, string>, g: string)
    requires forall i :: 0 <= i < |replacements| ==> replacements[i].0 != g && replacements[i].1 != g
    ensures var r := ApplyReplacements(inputs, replacements);
            && (g in r <==> g in inputs)
            && (g in inputs ==> r[g] == inputs[g])
    decreases |replacements|
  {
    if |replacements| > 0 {
      var rest := replacements[1..];
      assert forall i :: 0 <= i < |rest| ==> rest[i] == replacements[i + 1];
      ApplyReplacementsKeepsOthers(RenameInput(inputs, replacements[0].0, replacements[0].1), rest, g);
    }
  }

  /** Applying two replacements is renaming by the first, then by the second. */
  lemma ApplyTwo(inputs: RateMap, a: string, b: string, x: string, y: string)
    ensures ApplyReplacements(inputs, [(a, b), (x, y)]) == RenameInput(RenameInput(inputs, a, b), x, y)
  {
    var reps := [(a, b), (x, y)];
    var r1 := RenameInput(inputs, a, b);
    assert reps[1..] == [(x, y)] && reps[1..][1..] == [];
    assert ApplyReplacements(inputs, reps) == ApplyReplacements(r1, reps[1..]);
    assert ApplyReplacements(r1, reps[1..]) == ApplyReplacements(RenameInput(r1, x, y), reps[1..][1..]);
  }

  /**
    One modifier whose effects replace `a` by `b` and then `b` by `c` takes
    input `a` all the way to `c`, keeping its rate.
   */
  lemma ReplacementChain(inputs: RateMap, m: Modifier, a: string, b: string, c: string)
    requires m.effects == [ReplaceInput(a, b), ReplaceInput(b, c)]
    requires a != "" && b != "" && c != ""
    requires a in inputs
    requires a != b && b != c && a != c
    ensures var r := ApplyReplacements(inputs, InputReplacements(m));
            a !in r && b !in r && c in r && r[c] == inputs[a]
  {
    TwoReplacementsInOrder(m, a, b, b, c);
    ApplyTwo(inputs, a, b, b, c);
    var r1 := RenameInput(inputs, a, b);
    assert b in r1 && r1[b] == inputs[a] && a !in r1;
  }

  /**
    The same two effects in the other order: `b` is renamed to `c` before
    `a` becomes `b`, so input `a` ends under `b` and `c` is untouched.
   */
  lemma ReversedReplacementsStopEarly(inputs: RateMap, m: Modifier, a: string, b: string, c: string)
    requires m.effects == [ReplaceInput(b, c), ReplaceInput(a, b)]
    requires a != "" && b != "" && c != ""
    requires a in inputs && b !in inputs
    requires a != b && b != c && a != c
    ensures var r := ApplyReplacements(inputs, InputReplacements(m));
            && a !in r && b in r && r[b] == inputs[a]
            && (c in r <==> c in inputs) && (c in inputs ==> r[c] == inputs[c])
  {
    TwoReplacementsInOrder(m, b, c, a, b);
    ApplyTwo(inputs, b, c, a, b);
    assert RenameInput(inputs, b, c) == inputs;
  }

  /**
    The rate one extra-output effect adds: amount per cycle times cycles per
    minute, divided by 60.
   */
  function ExtraRate(amountPerCycle: int, cyclesPerMinute: real): (r: real) {
    amountPerCycle as real * cyclesPerMinute / 60.0
  }

  /** For a positive cycle time the extra rate is the amount divided by the cycle time in seconds. */
  lemma ExtraRateIsPerSecond(b: Building, amountPerCycle: int)
    requires b.cycleTimeSeconds > 0
    ensures ExtraRate(amountPerCycle, CyclesPerMinute(b)) * b.cycleTimeSeconds as real == amountPerCycle as real
  {
    var c := CyclesPerMinute(b);
    var t := b.cycleTimeSeconds as real;
    var a := amountPerCycle as real;
    calc {
      ExtraRate(amountPerCycle, c) * t;
      (a * c / 60.0) * t;
      a * (c * t) / 60.0;
      { assert c * t == 60.0; }
      a * 60.0 / 60.0;
    }
  }

  /** Adds every extra output, in dictionary order, to the output entry of its good (created at 0.0 when absent). */
  function AddExtraOutputs(outputs: RateMap, extras: Dict<string, int>, cyclesPerMinute: real): (r: RateMap)
    decreases |extras|
  {
    if |extras| == 0 then outputs
    else
      var g := extras[0].0;
      AddExtraOutputs(outputs[g := RateOf(outputs, g) + ExtraRate(extras[0].1, cyclesPerMinute)], extras[1..], cyclesPerMinute)
  }

  /** The output goods gain exactly the goods of the extra outputs. */
  lemma {:induction false} AddExtraOutputsKeys(outputs: RateMap, extras: Dict<string, int>, cyclesPerMinute: real)
    ensures AddExtraOutputs(outputs, extras, cyclesPerMinute).Keys == outputs.Keys + KeySet(extras)
    decreases |extras|
  {
    if |extras| > 0 {
      var g := extras[0].0;
      var next := outputs[g := RateOf(outputs, g) + ExtraRate(extras[0].1, cyclesPerMinute)];
      calc {
        AddExtraOutputs(outputs, extras, cyclesPerMinute).Keys;
        AddExtraOutputs(next, extras[1..], cyclesPerMinute).Keys;
        { AddExtraOutputsKeys(next, extras[1..], cyclesPerMinute); }
        next.Keys + KeySet(extras[1..]);
        outputs.Keys + ({g} + KeySet(extras[1..]));
        { KeySetCons(extras); }
        outputs.Keys + KeySet(extras);
      }
    }
  }

  /** A good without an extra output keeps its rate. */
  lemma {:induction false} AddExtraOutputsKeepsOthers(outputs: RateMap, extras: Dict<string, int>, cyclesPerMinute: real, g: string)
    requires g !in KeySet(extras)
    ensures RateOf(AddExtraOutputs(outputs, extras, cyclesPerMinute), g) == RateOf(outputs, g)
    decreases |extras|
  {
    if |extras| > 0 {
      var k := extras[0].0;
      var next := outputs[k := RateOf(outputs, k) + ExtraRate(extras[0].1, cyclesPerMinute)];
      KeySetCons(extras);
      AddExtraOutputsKeepsOthers(next, extras[1..], cyclesPerMinute, g);
    }
  }

  /** With distinct keys, each extra good gains exactly its own extra rate. */
  lemma {:induction false} AddExtraOutputsRate(outputs: RateMap, extras: Dict<string, int>, cyclesPerMinute: real, i: nat)
    requires UniqueKeys(extras) && i < |extras|
    ensures RateOf(AddExtraOutputs(outputs, extras, cyclesPerMinute), extras[i].0) ==
              RateOf(outputs, extras[i].0) + ExtraRate(extras[i].1, cyclesPerMinute)
    decreases |extras|
  {
    var g := extras[0].0;
    var next := outputs[g := RateOf(outputs, g) + ExtraRate(extras[0].1, cyclesPerMinute)];
    var rest := extras[1..];
    assert UniqueKeys(rest) by {
      forall a, b | 0 <= a < b < |rest| ensures rest[a].0 != rest[b].0 {
        assert rest[a] == extras[a + 1] && rest[b] == extras[b + 1];
      }
    }
    if i == 0 {
      assert g !in KeySet(rest) by {
        forall j | 0 <= j < |rest| ensures rest[j].0 != g {
          assert rest[j] == extras[j + 1];
        }
      }
      AddExtraOutputsKeepsOthers(next, rest, cyclesPerMinute, g);
    } else {
      assert extras[i] == rest[i - 1] && extras[i].0 != g;
      AddExtraOutputsRate(next, rest, cyclesPerMinute, i - 1);
    }
  }

  /** With zero cycles per minute the extra outputs change no output rate. */
  lemma {:induction false} NoCyclesNoExtraRate(outputs: RateMap, extras: Dict<string, int>, g: string)
    ensures RateOf(AddExtraOutputs(outputs, extras, 0.0), g) == RateOf(outputs, g)
    decreases |extras|
  {
    if |extras| > 0 {
      var k := extras[0].0;
      var next := outputs[k := RateOf(outputs, k) + ExtraRate(extras[0].1, 0.0)];
      assert RateOf(next, g) == RateOf(outputs, g) by {
        assert ExtraRate(extras[0].1, 0.0) == 0.0;
      }
      NoCyclesNoExtraRate(next, extras[1..], g);
    }
  }

  /** One modifier's step of the fold, with the building's cycles per minute. */
  function Step(s: Draft, m: Modifier, cyclesPerMinute: real): (r: Draft) {
    Draft(
      ApplyReplacements(s.inputs, InputReplacements(m)),
      AddExtraOutputs(s.outputs, ExtraOutputs(m), cyclesPerMinute),
      s.productivity + ProductivityBonus(m),
      ReducedWorkforce(s.workforce, WorkforceReductionOf(m)))
  }

  /** The fold over the modifiers, in order. */
  function Fold(s: Draft, ms: seq<Modifier>, cyclesPerMinute: real): (r: Draft)
    decreases |ms|
  {
    if |ms| == 0 then s else Fold(Step(s, ms[0], cyclesPerMinute), ms[1..], cyclesPerMinute)
  }

  /** The sum of the modifiers' productivity bonuses. */
  function TotalBonus(ms: seq<Modifier>): (r: real) {
    if |ms| == 0 then 0.0 else ProductivityBonus(ms[0]) + TotalBonus(ms[1..])
  }

  /** Productivity accumulates additively over the fold. */
  lemma {:induction false} FoldProductivity(s: Draft, ms: seq<Modifier>, cyclesPerMinute: real)
    ensures Fold(s, ms, cyclesPerMinute).productivity == s.productivity + TotalBonus(ms)
    decreases |ms|
  {
    if |ms| > 0 {
      FoldProductivity(Step(s, ms[0], cyclesPerMinute), ms[1..], cyclesPerMinute);
    }
  }

  /** Every modifier's workforce reduction lies in [0, 1]. */
  ghost predicate ReductionsAreFractions(ms: seq<Modifier>) {
    forall i :: 0 <= i < |ms| ==> 0.0 <= WorkforceReductionOf(ms[i]) <= 1.0
  }

  /**
    With every reduction in [0, 1], the workforce folded with truncation
    after each modifier stays non-negative and never grows.
   */
  lemma {:induction false} FoldWorkforceBounds(s: Draft, ms: seq<Modifier>, cyclesPerMinute: real)
    requires 0 <= s.workforce
    requires ReductionsAreFractions(ms)
    ensures 0 <= Fold(s, ms, cyclesPerMinute).workforce <= s.workforce
    decreases |ms|
  {
    if |ms| > 0 {
      var next := Step(s, ms[0], cyclesPerMinute);
      assert ReductionsAreFractions(ms[1..]) by {
        forall i | 0 <= i < |ms[1..]| ensures 0.0 <= WorkforceReductionOf(ms[1..][i]) <= 1.0 {
          assert ms[1..][i] == ms[i + 1];
        }
      }
      FoldWorkforceBounds(next, ms[1..], cyclesPerMinute);
    }
  }

  /** Every rate of `m` multiplied by `f`; the keys are kept. */
  function Scale(m: RateMap, f: real): (r: RateMap)
    ensures r.Keys == m.Keys
    ensures forall g :: g in m ==> r[g] == m[g] * f
  {
    map g | g in m :: m[g] * f
  }

  /** Scaling by 1.0 changes nothing. */
  lemma ScaleByOne(m: RateMap)
    ensures Scale(m, 1.0) == m
  {
    var r := Scale(m, 1.0);
    assert r.Keys == m.Keys;
    assert forall g :: g in m ==> r[g] == m[g];
  }

  /** The state the fold starts from: the base recipe, productivity 1.0, the base workforce. */
  function Start(b: Building): (s: Draft) {
    Draft(b.baseRecipe.inputs, b.baseRecipe.outputs, 1.0, b.workforce)
  }

  /** The fold over the modifiers for building `b`, before productivity scaling. */
  function Unscaled(b: Building, ms: seq<Modifier>): (s: Draft) {
    Fold(Start(b), ms, CyclesPerMinute(b))
  }

  /** The final pass: every input and output rate multiplied by the productivity. */
  function Finish(s: Draft): (a: Applied)
    ensures a.productivity == s.productivity && a.workforce == s.workforce
    ensures a.recipe.inputs.Keys == s.inputs.Keys && a.recipe.outputs.Keys == s.outputs.Keys
    ensures forall g :: g in s.inputs ==> a.recipe.inputs[g] == s.inputs[g] * s.productivity
    ensures forall g :: g in s.outputs ==> a.recipe.outputs[g] == s.outputs[g] * s.productivity
  {
    Applied(Recipe(Scale(s.inputs, s.productivity), Scale(s.outputs, s.productivity)), s.productivity, s.workforce)
  }

  /**
    Applies the modifiers to the building: the fold, then the final
    scaling. Productivity is 1 plus the sum of the modifiers' bonuses.
   */
  function ApplyModifiers(b: Building, ms: seq<Modifier>): (a: Applied)
    ensures a.productivity == 1.0 + TotalBonus(ms)
    ensures a.workforce == Unscaled(b, ms).workforce
  {
    FoldProductivity(Start(b), ms, CyclesPerMinute(b));
    Finish(Unscaled(b, ms))
  }

  /**
    Every effective input and output rate is the rate the fold left for that
    good times the final productivity, and the goods are the fold's goods.
   */
  lemma AppliedRatesAreScaled(b: Building, ms: seq<Modifier>, g: string)
    ensures var a := ApplyModifiers(b, ms);
            var s := Unscaled(b, ms);
            && (g in a.recipe.inputs <==> g in s.inputs)
            && (g in a.recipe.outputs <==> g in s.outputs)
            && InputRate(a.recipe, g) == RateOf(s.inputs, g) * a.productivity
            && OutputRate(a.recipe, g) == RateOf(s.outputs, g) * a.productivity
  {
    ApplyIsFinish(b, ms);
    FinishRates(Unscaled(b, ms), g);
  }

  /** The final scaling keeps the goods and multiplies each rate, read with default 0.0, by the productivity. */
  lemma FinishRates(s: Draft, g: string)
    ensures var a := Finish(s);
            && (g in a.recipe.inputs <==> g in s.inputs)
            && (g in a.recipe.outputs <==> g in s.outputs)
            && InputRate(a.recipe, g) == RateOf(s.inputs, g) * a.productivity
            && OutputRate(a.recipe, g) == RateOf(s.outputs, g) * a.productivity
  {
  }

  /** Applying modifiers is the fold followed by the final scaling. */
  lemma ApplyIsFinish(b: Building, ms: seq<Modifier>)
    ensures ApplyModifiers(b, ms) == Finish(Unscaled(b, ms))
  {
  }

  /** Without modifiers the base recipe, productivity 1.0 and the base workforce come back. */
  lemma NoModifiersKeepBase(b: Building)
    ensures ApplyModifiers(b, []) == Applied(b.baseRecipe, 1.0, b.workforce)
  {
    ScaleByOne(b.baseRecipe.inputs);
    ScaleByOne(b.baseRecipe.outputs);
  }

  /**
    With reductions in [0, 1] and a non-negative base workforce, the
    modified workforce lies between 0 and the base workforce.
   */
  lemma AppliedWorkforceBounds(b: Building, ms: seq<Modifier>)
    requires 0 <= b.workforce
    requires ReductionsAreFractions(ms)
    ensures 0 <= ApplyModifiers(b, ms).workforce <= b.workforce
  {
    FoldWorkforceBounds(Start(b), ms, CyclesPerMinute(b));
  }

  /** None of the modifiers replaces an input. */
  ghost predicate NoReplacements(ms: seq<Modifier>) {
    forall m, e :: m in ms && e in m.effects ==> !e.ReplaceInput?
  }

  /** A fold of modifiers that replace no input leaves the inputs untouched. */
  lemma {:induction false} FoldKeepsInputs(s: Draft, ms: seq<Modifier>, cyclesPerMinute: real)
    requires NoReplacements(ms)
    ensures Fold(s, ms, cyclesPerMinute).inputs == s.inputs
    decreases |ms|
  {
    if |ms| > 0 {
      forall j | 0 <= j < |ms[0].effects|
        ensures ReplacementPick(ms[0].effects[j]).None?
      {
        assert ms[0] in ms && ms[0].effects[j] in ms[0].effects;
      }
      CollectNothing(ms[0].effects, ReplacementPick);
      assert NoReplacements(ms[1..]) by {
        assert forall m :: m in ms[1..] ==> m in ms;
      }
      FoldKeepsInputs(Step(s, ms[0], cyclesPerMinute), ms[1..], cyclesPerMinute);
    }
  }

  /** Modifiers that replace no input leave the goods of the effective inputs those of the base recipe. */
  lemma AppliedInputsWithoutReplacements(b: Building, ms: seq<Modifier>)
    requires NoReplacements(ms)
    ensures ApplyModifiers(b, ms).recipe.inputs.Keys == b.baseRecipe.inputs.Keys
  {
    FoldKeepsInputs(Start(b), ms, CyclesPerMinute(b));
  }

  /** None of the modifiers replaces an input or adds an output. */
  ghost predicate OnlyScalarEffects(ms: seq<Modifier>) {
    forall i, j :: 0 <= i < |ms| && 0 <= j < |ms[i].effects| ==>
      !ms[i].effects[j].ReplaceInput? && !ms[i].effects[j].ExtraOutput?
  }

  /** A fold of modifiers with scalar effects only leaves the rates untouched. */
  lemma {:induction false} ScalarFoldKeepsRates(s: Draft, ms: seq<Modifier>, cyclesPerMinute: real)
    requires OnlyScalarEffects(ms)
    ensures Fold(s, ms, cyclesPerMinute).inputs == s.inputs
    ensures Fold(s, ms, cyclesPerMinute).outputs == s.outputs
    decreases |ms|
  {
    if |ms| > 0 {
      CollectNothing(ms[0].effects, ReplacementPick);
      CollectNothing(ms[0].effects, ExtraOutputPick);
      assert OnlyScalarEffects(ms[1..]) by {
        forall i, j | 0 <= i < |ms[1..]| && 0 <= j < |ms[1..][i].effects|
          ensures !ms[1..][i].effects[j].ReplaceInput? && !ms[1..][i].effects[j].ExtraOutput?
        {
          assert ms[1..][i] == ms[i + 1];
        }
      }
      ScalarFoldKeepsRates(Step(s, ms[0], cyclesPerMinute), ms[1..], cyclesPerMinute);
    }
  }

  /**
    Modifiers with only productivity and workforce effects scale the base
    recipe uniformly: same goods, every rate times the productivity.
   */
  lemma ScalarModifiersScaleBaseRecipe(b: Building, ms: seq<Modifier>)
    requires OnlyScalarEffects(ms)
    ensures var a := ApplyModifiers(b, ms);
            && a.recipe.inputs == Scale(b.baseRecipe.inputs, a.productivity)
            && a.recipe.outputs == Scale(b.baseRecipe.outputs, a.productivity)
  {
    ScalarFoldKeepsRates(Start(b), ms, CyclesPerMinute(b));
  }

  /** A fold with zero cycles per minute leaves every output rate as it was. */
  lemma {:induction false} NoCyclesFoldKeepsOutputRates(s: Draft, ms: seq<Modifier>, g: string)
    ensures RateOf(Fold(s, ms, 0.0).outputs, g) == RateOf(s.outputs, g)
    decreases |ms|
  {
    if |ms| > 0 {
      NoCyclesNoExtraRate(s.outputs, ExtraOutputs(ms[0]), g);
      NoCyclesFoldKeepsOutputRates(Step(s, ms[0], 0.0), ms[1..], g);
    }
  }

  /** A building with a non-positive cycle time folds with zero cycles per minute. */
  lemma UnscaledWithoutCycles(b: Building, ms: seq<Modifier>)
    requires b.cycleTimeSeconds <= 0
    ensures Unscaled(b, ms) == Fold(Start(b), ms, 0.0)
  {
  }

  /** An effective output rate is the rate the fold left for that good times the productivity. */
  lemma AppliedOutputRate(b: Building, ms: seq<Modifier>, g: string, before: real)
    requires RateOf(Unscaled(b, ms).outputs, g) == before
    ensures OutputRate(ApplyModifiers(b, ms).recipe, g) == before * ApplyModifiers(b, ms).productivity
  {
    var s := Unscaled(b, ms);
    assert ApplyModifiers(b, ms) == Finish(s);
    if g in s.outputs {
      assert OutputRate(Finish(s).recipe, g) == s.outputs[g] * s.productivity;
    }
  }

  /**
    For a building whose cycle time is not positive, extra outputs
    contribute nothing: every output rate is the base rate times the
    productivity.
   */
  lemma NonPositiveCycleTimeNoExtraOutput(b: Building, ms: seq<Modifier>, g: string)
    requires b.cycleTimeSeconds <= 0
    ensures OutputRate(ApplyModifiers(b, ms).recipe, g) ==
              OutputRate(b.baseRecipe, g) * ApplyModifiers(b, ms).productivity
  {
    assert RateOf(Unscaled(b, ms).outputs, g) == OutputRate(b.baseRecipe, g) by {
      UnscaledWithoutCycles(b, ms);
      NoCyclesFoldKeepsOutputRates(Start(b), ms, g);
    }
    AppliedOutputRate(b, ms, g, OutputRate(b.baseRecipe, g));
  }
}

=== FILE: good.dfy ===
/**
  Goods: commodities identified by name. A raw good has no producing
  building and ends a production chain.
 */
module Goods {

  datatype Good = Good(name: string, isRaw: bool)

  /** Any value a Good may be compared with: another Good or something else. */
  datatype Value = GoodValue(good: Good) | OtherValue(description: string)

  /** Equality of a Good with an arbitrary value: only the names decide. */
  function Equals(a: Good, other: Value): (r: bool)
    ensures other.OtherValue? ==> !r
    ensures other.GoodValue? ==> (r <==> a.name == other.good.name)
  {
    match other
    case GoodValue(b) => a.name == b.name
    case OtherValue(_) => false
  }

  /** The hash of a Good is the hash of its name, for a given string hash. */
  function Hash(g: Good, stringHash: string -> int): (h: int) {
    stringHash(g.name)
  }

  /** The raw flag takes no part in equality. */
  lemma EqualsIgnoresRawFlag(name: string, raw1: bool, raw2: bool)
    ensures Equals(Good(name, raw1), GoodValue(Good(name, raw2)))
  {
  }

  /** Equality is reflexive, symmetric and transitive. */
  lemma EqualsIsEquivalence(a: Good, b: Good, c: Good)
    ensures Equals(a, GoodValue(a))
    ensures Equals(a, GoodValue(b)) ==> Equals(b, GoodValue(a))
    ensures Equals(a, GoodValue(b)) && Equals(b, GoodValue(c)) ==> Equals(a, GoodValue(c))
  {
  }

  /** Equal Goods hash alike, whatever the string hash. */
  lemma HashRespectsEquals(a: Good, b: Good, stringHash: string -> int)
    requires Equals(a, GoodValue(b))
    ensures Hash(a, stringHash) == Hash(b, stringHash)
  {
  }
}

=== FILE: modifier.dfy ===
/**
  Modifiers: anything that alters how a building operates (electricity,
  items, policies). A modifier targets buildings by tag and carries an
  ordered list of effects; the getters below summarise the effects of one
  kind each and ignore the others.
 */
module Modifiers {
  import opened Wrappers
  import opened OrderedDict

  /**
    One effect. A field left out of the source's effect record takes that
    record's default (`0.0`, `""` or `0`); an effect whose type is none of
    the four is kept as `Unrecognised` and every getter ignores it.
   */
  datatype Effect =
    | Productivity(value: real)
    | ReplaceInput(originalGood: string, newGood: string)
    | ExtraOutput(good: string, amountPerCycle: int)
    | WorkforceReduction(value: real)
    | Unrecognised(kind: string)

  datatype Modifier = Modifier(name: string, targetTags: seq<string>, effects: seq<Effect>)

  /** Whether some tag of `targetTags` occurs among `buildingTags`, scanning in order. */
  function AnyTagIn(targetTags: seq<string>, buildingTags: seq<string>): (r: bool)
    ensures r <==> exists i :: 0 <= i < |targetTags| && targetTags[i] in buildingTags
  {
    if |targetTags| == 0 then false
    else if targetTags[0] in buildingTags then true
    else
      var r := AnyTagIn(targetTags[1..], buildingTags);
      assert forall i :: 0 < i < |targetTags| ==> targetTags[i] == targetTags[1..][i - 1];
      r
  }

  /**
    A modifier applies to a building when its target tags and the building's
    tags share a tag; a modifier without target tags applies nowhere.
   */
  function CanApplyTo(m: Modifier, buildingTags: seq<string>): (r: bool)
    ensures r <==> exists t :: t in m.targetTags && t in buildingTags
    ensures |m.targetTags| == 0 ==> !r
  {
    AnyTagIn(m.targetTags, buildingTags)
  }

  // ----- summed effects -----

  /** The two effect kinds whose values are summed per modifier. */
  datatype SummedKind = ProductivityKind | WorkforceKind

  /** The contribution of one effect to the sum of `kind`. */
  function Contribution(e: Effect, kind: SummedKind): (r: real) {
    match e
    case Productivity(v) => if kind == ProductivityKind then v else 0.0
    case WorkforceReduction(v) => if kind == WorkforceKind then v else 0.0
    case _ => 0.0
  }

  /** Whether `e` is an effect of `kind`. */
  predicate IsOfKind(e: Effect, kind: SummedKind) {
    match kind
    case ProductivityKind => e.Productivity?
    case WorkforceKind => e.WorkforceReduction?
  }

  /**
    The sum of the values of the effects of `kind`: 0.0 when there are
    none, and not negative when none of them is.
   */
  function SumOf(es: seq<Effect>, kind: SummedKind): (r: real)
    ensures (forall i :: 0 <= i < |es| ==> !IsOfKind(es[i], kind)) ==> r == 0.0
    ensures (forall i :: 0 <= i < |es| ==> 0.0 <= Contribution(es[i], kind)) ==> 0.0 <= r
  {
    if |es| == 0 then 0.0
    else
      assert forall i :: 0 < i < |es| ==> es[1..][i - 1] == es[i];
      Contribution(es[0], kind) + SumOf(es[1..], kind)
  }

  /** Sums split over concatenation. */
  lemma {:induction false} SumOfAppend(a: seq<Effect>, b: seq<Effect>, kind: SummedKind)
    ensures SumOf(a + b, kind) == SumOf(a, kind) + SumOf(b, kind)
    decreases |a|
  {
    if |a| == 0 {
      assert a + b == b;
    } else {
      assert (a + b)[0] == a[0];
      assert (a + b)[1..] == a[1..] + b;
      SumOfAppend(a[1..], b, kind);
    }
  }

  /** Inserting an effect of another kind anywhere leaves the sum unchanged. */
  lemma IgnoresOtherKinds(es: seq<Effect>, i: nat, e: Effect, kind: SummedKind)
    requires i <= |es|
    requires !IsOfKind(e, kind)
    ensures SumOf(es[..i] + [e] + es[i..], kind) == SumOf(es, kind)
  {
    var pre, post := es[..i], es[i..];
    calc {
      SumOf(pre + [e] + post, kind);
      { SumOfAppend(pre + [e], post, kind); }
      SumOf(pre + [e], kind) + SumOf(post, kind);
      { SumOfAppend(pre, [e], kind); SumOfOther(e, kind); }
      SumOf(pre, kind) + SumOf(post, kind);
      { SumOfAppend(pre, post, kind); assert pre + post == es; }
      SumOf(es, kind);
    }
  }

  /** A single effect of another kind sums to 0.0. */
  lemma SumOfOther(e: Effect, kind: SummedKind)
    requires !IsOfKind(e, kind)
    ensures SumOf([e], kind) == 0.0
  {
    assert [e][1..] == [];
  }

  /** The productivity bonus of a modifier (0.5 for +50%). */
  function ProductivityBonus(m: Modifier): (r: real)
    ensures (forall i :: 0 <= i < |m.effects| ==> !m.effects[i].Productivity?) ==> r == 0.0
  {
    SumOf(m.effects, ProductivityKind)
  }

  /** The workforce reduction of a modifier (0.5 for -50%). */
  function WorkforceReductionOf(m: Modifier): (r: real)
    ensures (forall i :: 0 <= i < |m.effects| ==> !m.effects[i].WorkforceReduction?) ==> r == 0.0
  {
    SumOf(m.effects, WorkforceKind)
  }

  // ----- collected effects -----

  /**
    Folds the effects in order into a dictionary: every effect that `pick`
    maps to a pair `(key, value)` assigns `value` to `key`.
   */
  function Collect<V>(es: seq<Effect>, pick: Effect -> Option<(string, V)>): (d: Dict<string, V>)
  {
    if |es| == 0 then []
    else
      var d := Collect(es[..|es| - 1], pick);
      var p := pick(es[|es| - 1]);
      if p.Some? then Put(d, p.value.0, p.value.1) else d
  }

  /** No effect after position `i` assigns to `k`. */
  ghost predicate NotReassignedAfter<V>(es: seq<Effect>, pick: Effect -> Option<(string, V)>, i: nat, k: string) {
    forall j :: i < j < |es| ==> pick(es[j]).None? || pick(es[j]).value.0 != k
  }

  /**
    The collected dictionary maps `k` to `v` exactly when some effect
    assigns `v` to `k` and no later effect assigns to `k` again.
   */
  lemma {:induction false} CollectLastWriteWins<V>(es: seq<Effect>, pick: Effect -> Option<(string, V)>, k: string, v: V)
    ensures Get(Collect(es, pick), k) == Some(v) <==>
              exists i :: 0 <= i < |es| && pick(es[i]) == Some((k, v)) && NotReassignedAfter(es, pick, i, k)
    decreases |es|
  {
    if |es| > 0 {
      var n := |es| - 1;
      var init := es[..n];
      CollectLastWriteWins(init, pick, k, v);
      var p := pick(es[n]);
      assert forall i :: 0 <= i < n ==> init[i] == es[i];
      if p.Some? && p.value.0 == k {
        assert NotReassignedAfter(es, pick, n, k);
        forall i | 0 <= i < n ensures !NotReassignedAfter(es, pick, i, k) {
          assert pick(es[n]).value.0 == k;
        }
      } else {
        assert Get(Collect(es, pick), k) == Get(Collect(init, pick), k);
        forall i | 0 <= i < n ensures NotReassignedAfter(es, pick, i, k) <==> NotReassignedAfter(init, pick, i, k) {
        }
      }
    }
  }

  /** The collected dictionary has no entry for `k` exactly when no effect assigns to `k`. */
  lemma {:induction false} CollectAbsent<V>(es: seq<Effect>, pick: Effect -> Option<(string, V)>, k: string)
    ensures Get(Collect(es, pick), k).None? <==>
              forall i :: 0 <= i < |es| ==> pick(es[i]).None? || pick(es[i]).value.0 != k
    decreases |es|
  {
    if |es| > 0 {
      var n := |es| - 1;
      CollectAbsent(es[..n], pick, k);
      assert forall i :: 0 <= i < n ==> es[..n][i] == es[i];
    }
  }

  /** The collected dictionary never holds a key twice. */
  lemma {:induction false} CollectUniqueKeys<V>(es: seq<Effect>, pick: Effect -> Option<(string, V)>)
    ensures UniqueKeys(Collect(es, pick))
    decreases |es|
  {
    if |es| > 0 {
      var n := |es| - 1;
      CollectUniqueKeys(es[..n], pick);
      var p := pick(es[n]);
      if p.Some? {
        PutKeepsUniqueKeys(Collect(es[..n], pick), p.value.0, p.value.1);
      }
    }
  }

  /** When `pick` selects no effect, nothing is collected. */
  lemma {:induction false} CollectNothing<V>(es: seq<Effect>, pick: Effect -> Option<(string, V)>)
    requires forall i :: 0 <= i < |es| ==> pick(es[i]).None?
    ensures Collect(es, pick) == []
    decreases |es|
  {
    if |es| > 0 {
      var n := |es| - 1;
      assert forall i :: 0 <= i < n ==> es[..n][i] == es[i];
      CollectNothing(es[..n], pick);
    }
  }

  /** Every collected entry is the pair some effect assigns. */
  lemma {:induction false} CollectEntries<V>(es: seq<Effect>, pick: Effect -> Option<(string, V)>)
    ensures forall i :: 0 <= i < |Collect(es, pick)| ==>
              exists j :: 0 <= j < |es| && pick(es[j]) == Some(Collect(es, pick)[i])
    decreases |es|
  {
    if |es| > 0 {
      var n := |es| - 1;
      var d := Collect(es[..n], pick);
      var r := Collect(es, pick);
      var p := pick(es[n]);
      CollectEntries(es[..n], pick);
      if p.Some? {
        PutEntries(d, p.value.0, p.value.1);
      }
      forall i | 0 <= i < |r| ensures exists j :: 0 <= j < |es| && pick(es[j]) == Some(r[i]) {
        if p.Some? && r[i] == p.value {
          assert pick(es[n]) == Some(r[i]);
        } else {
          assert r[i] in d;
          var i' :| 0 <= i' < |d| && d[i'] == r[i];
          var j :| 0 <= j < n && pick(es[..n][j]) == Some(d[i']);
          assert es[..n][j] == es[j];
        }
      }
    } else {
      assert Collect(es, pick) == [];
    }
  }

  /** The position of the first effect that assigns to `k`, or `|es|` when none does (see FirstWriteIsFirst). */
  ghost function FirstWrite<V>(es: seq<Effect>, pick: Effect -> Option<(string, V)>, k: string): (i: nat)
    decreases |es|
  {
    if |es| == 0 then 0
    else if pick(es[0]).Some? && pick(es[0]).value.0 == k then 0
    else 1 + FirstWrite(es[1..], pick, k)
  }

  /** FirstWrite finds the first effect assigning to `k`, and `|es|` only when none does. */
  lemma {:induction false} FirstWriteIsFirst<V>(es: seq<Effect>, pick: Effect -> Option<(string, V)>, k: string)
    ensures FirstWrite(es, pick, k) <= |es|
    ensures FirstWrite(es, pick, k) < |es| ==>
              pick(es[FirstWrite(es, pick, k)]).Some? && pick(es[FirstWrite(es, pick, k)]).value.0 == k
    ensures forall j :: 0 <= j < FirstWrite(es, pick, k) ==> pick(es[j]).None? || pick(es[j]).value.0 != k
    decreases |es|
  {
    if |es| > 0 && !(pick(es[0]).Some? && pick(es[0]).value.0 == k) {
      FirstWriteIsFirst(es[1..], pick, k);
      assert forall j :: 0 < j < |es| ==> es[j] == es[1..][j - 1];
    }
  }

  /** Appending effects does not move a first write that already happened, nor create an earlier one. */
  lemma FirstWritePrefix<V>(es: seq<Effect>, pick: Effect -> Option<(string, V)>, k: string, n: nat)
    requires n <= |es|
    ensures FirstWrite(es[..n], pick, k) < n ==> FirstWrite(es, pick, k) == FirstWrite(es[..n], pick, k)
    ensures FirstWrite(es[..n], pick, k) == n ==> FirstWrite(es, pick, k) >= n
  {
    FirstWriteIsFirst(es, pick, k);
    FirstWriteIsFirst(es[..n], pick, k);
    assert forall j :: 0 <= j < n ==> es[..n][j] == es[j];
  }

  /** A key that the last effect assigns, and that the earlier effects never collected, is first written last. */
  lemma NewKeyFirstWrittenLast<V>(es: seq<Effect>, pick: Effect -> Option<(string, V)>, k: string)
    requires |es| > 0
    requires pick(es[|es| - 1]).Some? && pick(es[|es| - 1]).value.0 == k
    requires k !in Keys(Collect(es[..|es| - 1], pick))
    ensures FirstWrite(es, pick, k) == |es| - 1
  {
    var n := |es| - 1;
    GetNoneIffAbsent(Collect(es[..n], pick), k);
    CollectAbsent(es[..n], pick, k);
    assert forall i :: 0 <= i < n ==> es[..n][i] == es[i];
    FirstWriteIsFirst(es, pick, k);
  }

  /** Every key in `ks` is assigned by some effect, and the keys are listed in the order of their first assignment. */
  ghost predicate InFirstWriteOrder<V>(es: seq<Effect>, pick: Effect -> Option<(string, V)>, ks: seq<string>) {
    && (forall a :: 0 <= a < |ks| ==> FirstWrite(es, pick, ks[a]) < |es|)
    && (forall a, b :: 0 <= a < b < |ks| ==> FirstWrite(es, pick, ks[a]) < FirstWrite(es, pick, ks[b]))
  }

  /** An order of first writes among a prefix of the effects persists, within the prefix, over all of them. */
  lemma OrderExtends<V>(es: seq<Effect>, pick: Effect -> Option<(string, V)>, ks: seq<string>, n: nat)
    requires n <= |es|
    requires InFirstWriteOrder(es[..n], pick, ks)
    ensures InFirstWriteOrder(es, pick, ks)
    ensures forall a :: 0 <= a < |ks| ==> FirstWrite(es, pick, ks[a]) < n
  {
    forall a | 0 <= a < |ks| ensures FirstWrite(es, pick, ks[a]) == FirstWrite(es[..n], pick, ks[a]) {
      FirstWritePrefix(es, pick, ks[a], n);
    }
  }

  /** A key first written after all keys of `ks` may follow them. */
  lemma OrderAppend<V>(es: seq<Effect>, pick: Effect -> Option<(string, V)>, ks: seq<string>, k: string)
    requires InFirstWriteOrder(es, pick, ks)
    requires FirstWrite(es, pick, k) < |es|
    requires forall a :: 0 <= a < |ks| ==> FirstWrite(es, pick, ks[a]) < FirstWrite(es, pick, k)
    ensures InFirstWriteOrder(es, pick, ks + [k])
  {
    var r := ks + [k];
    forall a | 0 <= a < |r| ensures FirstWrite(es, pick, r[a]) < |es| {
      if a < |ks| { assert r[a] == ks[a]; } else { assert r[a] == k; }
    }
    forall a, b | 0 <= a < b < |r| ensures FirstWrite(es, pick, r[a]) < FirstWrite(es, pick, r[b]) {
      assert r[a] == ks[a];
      if b < |ks| { assert r[b] == ks[b]; } else { assert r[b] == k; }
    }
  }

  /**
    The keys of the collected dictionary are in the order of their first
    assignment: every key was assigned, and a key listed earlier was first
    assigned earlier.
   */
  lemma {:induction false} CollectKeyOrder<V>(es: seq<Effect>, pick: Effect -> Option<(string, V)>)
    ensures InFirstWriteOrder(es, pick, Keys(Collect(es, pick)))
    decreases |es|
  {
    if |es| > 0 {
      var n := |es| - 1;
      var d := Collect(es[..n], pick);
      CollectKeyOrder(es[..n], pick);
      OrderExtends(es, pick, Keys(d), n);
      var p := pick(es[n]);
      if p.Some? {
        var k := p.value.0;
        PutKeyOrder(d, k, p.value.1);
        if k !in Keys(d) {
          NewKeyFirstWrittenLast(es, pick, k);
          OrderAppend(es, pick, Keys(d), k);
        }
      }
    }
  }

  /** A replacement effect with both names non-empty renames `originalGood` to `newGood`. */
  function ReplacementPick(e: Effect): (r: Option<(string, string)>) {
    if e.ReplaceInput? && e.originalGood != "" && e.newGood != "" then Some((e.originalGood, e.newGood)) else None
  }

  /** An extra-output effect with a non-empty good and a positive amount adds that amount per cycle. */
  function ExtraOutputPick(e: Effect): (r: Option<(string, int)>) {
    if e.ExtraOutput? && e.good != "" && e.amountPerCycle > 0 then Some((e.good, e.amountPerCycle)) else None
  }

  /**
    The input replacements of a modifier, original good name to new good
    name: distinct originals, both names non-empty, each pair taken from one
    of the modifier's replacement effects.
   */
  function InputReplacements(m: Modifier): (r: Dict<string, string>)
    ensures UniqueKeys(r)
    ensures forall i :: 0 <= i < |r| ==> r[i].0 != "" && r[i].1 != "" && ReplaceInput(r[i].0, r[i].1) in m.effects
  {
    CollectUniqueKeys(m.effects, ReplacementPick);
    CollectEntries(m.effects, ReplacementPick);
    Collect(m.effects, ReplacementPick)
  }

  /**
    The extra outputs of a modifier, good name to amount per cycle: distinct
    non-empty goods with positive amounts, each pair taken from one of the
    modifier's extra-output effects.
   */
  function ExtraOutputs(m: Modifier): (r: Dict<string, int>)
    ensures UniqueKeys(r)
    ensures forall i :: 0 <= i < |r| ==> r[i].0 != "" && r[i].1 > 0 && ExtraOutput(r[i].0, r[i].1) in m.effects
  {
    CollectUniqueKeys(m.effects, ExtraOutputPick);
    CollectEntries(m.effects, ExtraOutputPick);
    Collect(m.effects, ExtraOutputPick)
  }

  /**
    `original` is replaced by `replacement` exactly when both names are non-empty,
    some effect replaces `original` by `replacement`, and no later effect with a
    non-empty new name replaces `original` again.
   */
  lemma InputReplacementsLastWins(m: Modifier, original: string, replacement: string)
    ensures Get(InputReplacements(m), original) == Some(replacement) <==>
              original != "" && replacement != "" &&
              exists i :: 0 <= i < |m.effects| && m.effects[i] == ReplaceInput(original, replacement) &&
                forall j :: i < j < |m.effects| ==>
                  !(m.effects[j].ReplaceInput? && m.effects[j].originalGood == original && m.effects[j].newGood != "")
  {
    CollectLastWriteWins(m.effects, ReplacementPick, original, replacement);
  }

  /** Two replacements of different originals are collected in effect order. */
  lemma TwoReplacementsInOrder(m: Modifier, a: string, b: string, x: string, y: string)
    requires m.effects == [ReplaceInput(a, b), ReplaceInput(x, y)]
    requires a != "" && b != "" && x != "" && y != "" && a != x
    ensures InputReplacements(m) == [(a, b), (x, y)]
  {
    var es := m.effects;
    assert es[..1] == [ReplaceInput(a, b)] && es[..1][..0] == [];
    assert Collect(es[..1], ReplacementPick) == [(a, b)];
    PutNewKeyAppends([(a, b)], x, y);
  }

  /** Replacing an original again overwrites its new name but keeps its first position. */
  lemma ReReplacementKeepsPosition(m: Modifier, a: string, b: string, x: string, y: string, z: string)
    requires m.effects == [ReplaceInput(a, b), ReplaceInput(x, y), ReplaceInput(a, z)]
    requires a != "" && b != "" && x != "" && y != "" && z != "" && a != x
    ensures InputReplacements(m) == [(a, z), (x, y)]
  {
    var es := m.effects;
    TwoReplacementsInOrder(Modifier(m.name, m.targetTags, es[..2]), a, b, x, y);
    PutPresentKeyInPlace([(a, b), (x, y)], a, z, 0);
  }

  /**
    `good` gets `amount` extra per cycle exactly when `good` is non-empty,
    the amount is positive, some effect adds it, and no later effect with a
    positive amount names `good` again (a repeat overwrites, never sums).
   */
  lemma ExtraOutputsLastWins(m: Modifier, good: string, amount: int)
    ensures Get(ExtraOutputs(m), good) == Some(amount) <==>
              good != "" && amount > 0 &&
              exists i :: 0 <= i < |m.effects| && m.effects[i] == ExtraOutput(good, amount) &&
                forall j :: i < j < |m.effects| ==>
                  !(m.effects[j].ExtraOutput? && m.effects[j].good == good && m.effects[j].amountPerCycle > 0)
  {
    CollectLastWriteWins(m.effects, ExtraOutputPick, good, amount);
  }
}

=== FILE: ordered_dict.dfy ===
/** The optional value used throughout the model. */
module Wrappers {

  datatype Option<+T> = None | Some(value: T)
}

/**
  Insertion-ordered dictionaries with the semantics of a Python `dict`:
  assigning to a key that is already present overwrites its value but keeps
  its position; assigning to a new key appends it. A dictionary is an
  association list whose keys are pairwise distinct.
 */
module OrderedDict {
  import opened Wrappers

  type Dict<K, V> = seq<(K, V)>

  /** The keys in iteration order. */
  function Keys<K, V>(d: Dict<K, V>): (ks: seq<K>)
    ensures |ks| == |d|
    ensures forall i :: 0 <= i < |d| ==> ks[i] == d[i].0
  {
    if |d| == 0 then [] else [d[0].0] + Keys(d[1..])
  }

  /** The keys as a set: exactly the keys that Keys lists. */
  function KeySet<K(!new), V>(d: Dict<K, V>): (ks: set<K>)
    ensures forall k :: k in ks <==> k in Keys(d)
  {
    set i | 0 <= i < |d| :: d[i].0
  }

  /** The keys of a non-empty dictionary: the first key and the keys of the rest. */
  lemma KeySetCons<K(!new), V>(d: Dict<K, V>)
    requires |d| > 0
    ensures KeySet(d) == {d[0].0} + KeySet(d[1..])
  {
    forall k | k in KeySet(d) ensures k in {d[0].0} + KeySet(d[1..]) {
      var i :| 0 <= i < |d| && d[i].0 == k;
      if i > 0 { assert d[1..][i - 1] == d[i]; }
    }
    forall k | k in KeySet(d[1..]) ensures k in KeySet(d) {
      var i :| 0 <= i < |d[1..]| && d[1..][i].0 == k;
      assert d[i + 1] == d[1..][i];
    }
  }

  ghost predicate UniqueKeys<K, V>(d: Dict<K, V>) {
    forall i, j :: 0 <= i < j < |d| ==> d[i].0 != d[j].0
  }

  /** Lookup: the value stored under `k`, if any (the first entry carrying `k`). */
  function Get<K(==), V>(d: Dict<K, V>, k: K): (r: Option<V>)
  {
    if |d| == 0 then None
    else if d[0].0 == k then Some(d[0].1)
    else Get(d[1..], k)
  }

  /** A lookup fails exactly when the key is not among the keys. */
  lemma {:induction false} GetNoneIffAbsent<K, V>(d: Dict<K, V>, k: K)
    ensures Get(d, k).None? <==> k !in Keys(d)
    decreases |d|
  {
    if |d| > 0 {
      GetNoneIffAbsent(d[1..], k);
      assert Keys(d) == [d[0].0] + Keys(d[1..]);
    }
  }

  /**
    Assignment `d[k] = v`: `k` now maps to `v` and every other key keeps its
    value (how the key order changes is stated by PutKeyOrder).
   */
  function Put<K(==, !new), V>(d: Dict<K, V>, k: K, v: V): (r: Dict<K, V>)
    ensures Get(r, k) == Some(v)
    ensures forall k' :: k' != k ==> Get(r, k') == Get(d, k')
  {
    if |d| == 0 then [(k, v)]
    else if d[0].0 == k then [(k, v)] + d[1..]
    else
      var rest := Put(d[1..], k, v);
      assert ([d[0]] + rest)[1..] == rest;
      [d[0]] + rest
  }

  /**
    Assignment keeps the position of a key that is already present and
    appends a new key at the end.
   */
  lemma {:induction false} PutKeyOrder<K(!new), V>(d: Dict<K, V>, k: K, v: V)
    ensures Keys(Put(d, k, v)) == if k in Keys(d) then Keys(d) else Keys(d) + [k]
    decreases |d|
  {
    if |d| > 0 {
      assert Keys(d) == [d[0].0] + Keys(d[1..]);
      if d[0].0 == k {
        assert Keys(Put(d, k, v)) == [k] + Keys(d[1..]);
      } else {
        PutKeyOrder(d[1..], k, v);
        var rest := Put(d[1..], k, v);
        assert Put(d, k, v) == [d[0]] + rest;
        assert Keys([d[0]] + rest) == [d[0].0] + Keys(([d[0]] + rest)[1..]);
        assert ([d[0]] + rest)[1..] == rest;
      }
    }
  }

  /** Every entry after an assignment is the assigned pair or an entry that was already there. */
  lemma {:induction false} PutEntries<K(!new), V>(d: Dict<K, V>, k: K, v: V)
    ensures forall i :: 0 <= i < |Put(d, k, v)| ==> Put(d, k, v)[i] == (k, v) || Put(d, k, v)[i] in d
    decreases |d|
  {
    if |d| > 0 && d[0].0 != k {
      PutEntries(d[1..], k, v);
      var rest := Put(d[1..], k, v);
      assert Put(d, k, v) == [d[0]] + rest;
      forall i | 0 < i < |Put(d, k, v)| ensures Put(d, k, v)[i] == (k, v) || Put(d, k, v)[i] in d {
        assert Put(d, k, v)[i] == rest[i - 1];
        assert rest[i - 1] in d[1..] ==> rest[i - 1] in d;
      }
    }
  }

  /** Assignment keeps the keys distinct. */
  lemma PutKeepsUniqueKeys<K(!new), V>(d: Dict<K, V>, k: K, v: V)
    requires UniqueKeys(d)
    ensures UniqueKeys(Put(d, k, v))
  {
    var r := Put(d, k, v);
    PutKeyOrder(d, k, v);
    forall i, j | 0 <= i < j < |r| ensures r[i].0 != r[j].0 {
      assert Keys(r)[i] == r[i].0 && Keys(r)[j] == r[j].0;
      if k in Keys(d) {
        assert Keys(d)[i] != Keys(d)[j];
      } else if j < |d| {
        assert Keys(d)[i] != Keys(d)[j];
      } else {
        assert Keys(d)[i] in Keys(d);
      }
    }
  }

  /** Assigning to a key that is not yet present appends one entry at the end. */
  lemma {:induction false} PutNewKeyAppends<K(!new), V>(d: Dict<K, V>, k: K, v: V)
    requires k !in Keys(d)
    ensures Put(d, k, v) == d + [(k, v)]
    decreases |d|
  {
    if |d| > 0 {
      assert Keys(d) == [d[0].0] + Keys(d[1..]);
      PutNewKeyAppends(d[1..], k, v);
      assert [d[0]] + (d[1..] + [(k, v)]) == d + [(k, v)];
    }
  }

  /** Assigning to a present key (keys distinct) overwrites its entry in place. */
  lemma {:induction false} PutPresentKeyInPlace<K(!new), V>(d: Dict<K, V>, k: K, v: V, i: nat)
    requires UniqueKeys(d)
    requires i < |d| && d[i].0 == k
    ensures Put(d, k, v) == d[i := (k, v)]
    decreases i
  {
    if i > 0 {
      assert d[0].0 != k;
      assert UniqueKeys(d[1..]);
      PutPresentKeyInPlace(d[1..], k, v, i - 1);
      assert [d[0]] + d[1..][i - 1 := (k, v)] == d[i := (k, v)];
    }
  }
}

=== FILE: recipe.dfy ===
/**
  Recipes: a transformation of input goods into output goods, each rate in
  tons per minute, keyed by good name.
 */
module Recipes {

  type RateMap = map<string, real>

  datatype Recipe = Recipe(inputs: RateMap, outputs: RateMap)

  /** The rate stored for `g`, or 0.0 when `g` has no entry. */
  function RateOf(m: RateMap, g: string): (r: real)
    ensures g in m ==> r == m[g]
    ensures g !in m ==> r == 0.0
  {
    if g in m then m[g] else 0.0
  }

  /** Consumption rate of `g`; 0.0 when `g` is not an input. */
  function InputRate(recipe: Recipe, g: string): (r: real)
    ensures g in recipe.inputs ==> r == recipe.inputs[g]
    ensures g !in recipe.inputs ==> r == 0.0
  {
    RateOf(recipe.inputs, g)
  }

  /** Production rate of `g`; 0.0 when `g` is not an output. */
  function OutputRate(recipe: Recipe, g: string): (r: real)
    ensures g in recipe.outputs ==> r == recipe.outputs[g]
    ensures g !in recipe.outputs ==> r == 0.0
  {
    RateOf(recipe.outputs, g)
  }

  /**
    A non-zero rate can only come from an entry of the map it is read from,
    and a good with no entry is neither consumed nor produced.
   */
  lemma NonZeroRateIsListed(recipe: Recipe, g: string)
    ensures InputRate(recipe, g) != 0.0 ==> g in recipe.inputs && recipe.inputs[g] == InputRate(recipe, g)
    ensures OutputRate(recipe, g) != 0.0 ==> g in recipe.outputs && recipe.outputs[g] == OutputRate(recipe, g)
    ensures g !in recipe.inputs && g !in recipe.outputs ==> InputRate(recipe, g) == 0.0 == OutputRate(recipe, g)
  {
  }
}

=== FILE: resolver.dfy ===
/**
  The chain resolver: turns a request (good, target rate, mode) into a tree
  of building counts, rates and workforce figures, recursing once per input
  of the effective recipe. A failure is a value that replaces only the
  subtree of the failing good.
 */
module ChainResolver {
  import opened Wrappers
  import opened OrderedDict
  import opened Goods
  import opened Recipes
  import opened Buildings
  import opened Modifiers
  import opened EffectEngine
  import opened Selection
  import opened Catalog

  /** How a building runs in one mode: effective recipe, productivity, workforce, modifiers. */
  datatype Setup = Setup(recipe: Recipe, productivity: real, workforce: int, modifiers: seq<Modifier>)

  /**
    Base mode runs the base recipe at productivity 1.0 with the base
    workforce and no modifiers; optimized mode applies the selected modifiers.
   */
  function Configure(c: Catalog, b: Building, optimized: bool): (s: Setup) {
    if optimized then
      var ms := FindBestModifiers(c.modifiers, b);
      var a := ApplyModifiers(b, ms);
      Setup(a.recipe, a.productivity, a.workforce, ms)
    else
      Setup(b.baseRecipe, 1.0, b.workforce, [])
  }

  /**
    One node of the production tree. A raw good's node carries the constant
    figures of a terminal node: no buildings, productivity 1.0, no
    modifiers, no inputs and no sub-chains.
   */
  datatype Node =
    | Failed(error: string)
    | Terminal(
        good: string, targetRate: real, count: real, productivity: real,
        modifiers: seq<string>, inputs: map<string, real>, sub: map<string, Node>)
    | Produced(
        good: string, targetRate: real, building: string, count: real, productivity: real,
        workforcePerBuilding: int, workforceType: string, totalWorkforce: real,
        locations: seq<string>, modifiers: seq<string>, recipe: Recipe,
        inputs: map<string, real>, sub: map<string, Node>)

  /** The error message for a good that is not registered. */
  function UnknownGoodError(g: string): (msg: string) {
    "Good '" + g + "' not found in system"
  }

  /** The error message for a good that no building produces. */
  function NoBuildingError(g: string): (msg: string) {
    "No building found to produce '" + g + "'"
  }

  /** The error message for a producer whose effective recipe does not make the good. */
  function NotProducedError(buildingName: string, g: string): (msg: string) {
    "Building '" + buildingName + "' does not produce '" + g + "'"
  }

  /** Resolving `good` (at any rate) recurses into `input`. */
  predicate Feeds(c: Catalog, optimized: bool, good: string, input: string) {
    && good in c.goods && !c.goods[good].isRaw
    && FindBuilding(c.buildings, good).Some?
    && var s := Configure(c, FindBuilding(c.buildings, good).value, optimized);
       OutputRate(s.recipe, good) > 0.0 && input in s.recipe.inputs
  }

  /**
    The recipe graph the resolver walks is acyclic, witnessed by a rank that
    drops along every edge it recurses on. The resolver has no cycle check of
    its own; this condition is what makes it terminate.
   */
  ghost predicate Acyclic(c: Catalog, optimized: bool, rank: string -> nat) {
    forall good, input :: Feeds(c, optimized, good, input) ==> rank(input) < rank(good)
  }

  /** Every input of the producer's effective recipe is fed by `good` once that recipe makes `good`. */
  lemma ProducerFeedsInputs(c: Catalog, optimized: bool, good: string, b: Building)
    requires good in c.goods && !c.goods[good].isRaw
    requires FindBuilding(c.buildings, good) == Some(b)
    requires OutputRate(Configure(c, b, optimized).recipe, good) > 0.0
    ensures forall g :: g in Configure(c, b, optimized).recipe.inputs ==> Feeds(c, optimized, good, g)
  {
  }

  /** Under an acyclic catalogue every input the resolver recurses on has a lower rank. */
  lemma InputsRankLower(c: Catalog, optimized: bool, rank: string -> nat, good: string, b: Building)
    requires Acyclic(c, optimized, rank)
    requires good in c.goods && !c.goods[good].isRaw
    requires FindBuilding(c.buildings, good) == Some(b)
    requires OutputRate(Configure(c, b, optimized).recipe, good) > 0.0
    ensures forall g :: g in Configure(c, b, optimized).recipe.inputs ==> rank(g) < rank(good)
  {
    ProducerFeedsInputs(c, optimized, good, b);
  }

  /** Buildings needed to deliver `rate` when one building delivers `outputRate`. */
  function Count(rate: real, outputRate: real): (n: real)
    requires outputRate > 0.0
    ensures n * outputRate == rate
  {
    rate / outputRate
  }

  /** What a recipe demands of each of its inputs when run by `count` buildings. */
  function Demand(recipe: Recipe, count: real): (d: map<string, real>)
    ensures d.Keys == recipe.inputs.Keys
  {
    map g | g in recipe.inputs :: recipe.inputs[g] * count
  }

  /**
    The figures of a built node agree with each other: its count times the
    effective output rate of its good is its target rate, each input of its
    effective recipe is demanded at the recipe rate times the count, and its
    total workforce is the per-building workforce times the count.
   */
  predicate Balanced(n: Node) {
    n.Produced? ==>
      && OutputRate(n.recipe, n.good) > 0.0
      && n.count * OutputRate(n.recipe, n.good) == n.targetRate
      && n.inputs.Keys == n.recipe.inputs.Keys
      && (forall g :: g in n.inputs ==> n.inputs[g] == n.recipe.inputs[g] * n.count)
      && n.totalWorkforce == n.workforcePerBuilding as real * n.count
  }

  /** The node of `good` produced by building `b` configured as `s`, with sub-chains `sub`. */
  function Build(good: string, rate: real, b: Building, s: Setup, sub: map<string, Node>): (n: Node)
    requires OutputRate(s.recipe, good) > 0.0
    ensures n.Produced? && Balanced(n)
    ensures n.good == good && n.targetRate == rate && n.sub == sub
    ensures n.inputs == Demand(s.recipe, Count(rate, OutputRate(s.recipe, good)))
    ensures && n.building == b.name && n.recipe == s.recipe && n.productivity == s.productivity
            && n.workforcePerBuilding == s.workforce && n.workforceType == b.workforceType
            && n.locations == b.locations && n.modifiers == Names(s.modifiers)
  {
    var count := Count(rate, OutputRate(s.recipe, good));
    Produced(
      good, rate, b.name, count, s.productivity,
      s.workforce, b.workforceType, s.workforce as real * count,
      b.locations, Names(s.modifiers), s.recipe, Demand(s.recipe, count), sub)
  }

  /**
    A rank that drops from every produced good to each input of its
    producer's base recipe.
   */
  ghost predicate RankedByBaseRecipes(c: Catalog, rank: string -> nat) {
    forall good, input ::
      && good in c.goods && !c.goods[good].isRaw
      && FindBuilding(c.buildings, good).Some?
      && input in FindBuilding(c.buildings, good).value.baseRecipe.inputs
      ==> rank(input) < rank(good)
  }

  /**
    A rank over the base recipes witnesses termination in base mode, and in
    optimized mode too when no registered modifier replaces an input.
   */
  lemma BaseRankingSuffices(c: Catalog, optimized: bool, rank: string -> nat)
    requires RankedByBaseRecipes(c, rank)
    requires optimized ==> NoReplacements(c.modifiers)
    ensures Acyclic(c, optimized, rank)
  {
    forall good, input | Feeds(c, optimized, good, input)
      ensures rank(input) < rank(good)
    {
      var b := FindBuilding(c.buildings, good).value;
      if optimized {
        var ms := FindBestModifiers(c.modifiers, b);
        assert NoReplacements(ms);
        AppliedInputsWithoutReplacements(b, ms);
      }
    }
  }

  /**
    Resolves `good` at `rate`.
    - an unregistered good is an error node, and a raw good a terminal node;
    - the producer is the first registered building whose base recipe makes
      the good, and without one the result is an error node;
    - an effective output rate that is not positive is an error node;
    - otherwise the node is built by the producer (and so is balanced), and
      every sub-chain is resolved at exactly the rate demanded of its input.
   */
  function Resolve(c: Catalog, good: string, rate: real, optimized: bool, rank: string -> nat): (r: Node)
    requires Acyclic(c, optimized, rank)
    ensures good !in c.goods ==> r == Failed(UnknownGoodError(good))
    ensures good in c.goods && c.goods[good].isRaw ==> r == Terminal(good, rate, 0.0, 1.0, [], map[], map[])
    ensures good in c.goods && !c.goods[good].isRaw && FindBuilding(c.buildings, good).None? ==>
              r == Failed(NoBuildingError(good))
    ensures !r.Failed? ==> r.good == good && r.targetRate == rate
    ensures r.Produced? ==> Balanced(r) && r.sub.Keys == r.inputs.Keys
    decreases rank(good)
  {
    if good !in c.goods then Failed(UnknownGoodError(good))
    else if c.goods[good].isRaw then Terminal(good, rate, 0.0, 1.0, [], map[], map[])
    else
      match FindBuilding(c.buildings, good)
      case None => Failed(NoBuildingError(good))
      case Some(b) =>
        var s := Configure(c, b, optimized);
        var outputRate := OutputRate(s.recipe, good);
        if outputRate <= 0.0 then Failed(NotProducedError(b.name, good))
        else
          var inputs := Demand(s.recipe, Count(rate, outputRate));
          InputsRankLower(c, optimized, rank, good, b);
          var sub := map g | g in s.recipe.inputs :: Resolve(c, g, inputs[g], optimized, rank);
          Build(good, rate, b, s, sub)
  }

  /**
    Which node a registered, non-raw good resolves to: an error node naming
    the producer exactly when the producer's effective recipe does not make
    the good at a positive rate, and a built node otherwise.
   */
  lemma ResolveOutcome(c: Catalog, good: string, rate: real, optimized: bool, rank: string -> nat)
    requires Acyclic(c, optimized, rank)
    requires good in c.goods && !c.goods[good].isRaw && FindBuilding(c.buildings, good).Some?
    ensures var b := FindBuilding(c.buildings, good).value;
            var r := Resolve(c, good, rate, optimized, rank);
            && (r.Produced? <==> OutputRate(Configure(c, b, optimized).recipe, good) > 0.0)
            && (!r.Produced? ==> r == Failed(NotProducedError(b.name, good)))
  {
  }

  /**
    A built node is run by the producer found in registry order (the first
    building whose base recipe makes the good, in either mode), configured
    as its mode prescribes.
   */
  lemma ResolveUsesProducer(c: Catalog, good: string, rate: real, optimized: bool, rank: string -> nat)
    requires Acyclic(c, optimized, rank)
    requires Resolve(c, good, rate, optimized, rank).Produced?
    ensures FindBuilding(c.buildings, good).Some?
    ensures var r := Resolve(c, good, rate, optimized, rank);
            var b := FindBuilding(c.buildings, good).value;
            var s := Configure(c, b, optimized);
            && r.building == b.name
            && r.recipe == s.recipe
            && r.productivity == s.productivity
            && r.modifiers == Names(s.modifiers)
            && r.workforcePerBuilding == s.workforce
            && r.workforceType == b.workforceType
            && r.locations == b.locations
  {
  }

  /** In base mode a built node runs its producer's base recipe with the base workforce and no modifier. */
  lemma BaseModeRunsBaseRecipe(c: Catalog, good: string, rate: real, rank: string -> nat)
    requires Acyclic(c, false, rank)
    requires Resolve(c, good, rate, false, rank).Produced?
    ensures FindBuilding(c.buildings, good).Some?
    ensures var r := Resolve(c, good, rate, false, rank);
            var b := FindBuilding(c.buildings, good).value;
            && r.recipe == b.baseRecipe && r.productivity == 1.0
            && r.workforcePerBuilding == b.workforce && r.modifiers == []
  {
    ResolveUsesProducer(c, good, rate, false, rank);
  }

  /** Every sub-chain of a built node is the resolution of its input at the rate the node demands of it. */
  lemma ResolveSubChains(c: Catalog, good: string, rate: real, optimized: bool, rank: string -> nat)
    requires Acyclic(c, optimized, rank)
    requires Resolve(c, good, rate, optimized, rank).Produced?
    ensures var r := Resolve(c, good, rate, optimized, rank);
            forall g :: g in r.sub ==> r.sub[g] == Resolve(c, g, r.inputs[g], optimized, rank)
  {
  }

  /** Every sub-chain of a built node is for a good of lower rank than the node's own. */
  lemma SubChainsRankLower(c: Catalog, good: string, rate: real, optimized: bool, rank: string -> nat)
    requires Acyclic(c, optimized, rank)
    requires Resolve(c, good, rate, optimized, rank).Produced?
    ensures forall g :: g in Resolve(c, good, rate, optimized, rank).sub ==> rank(g) < rank(good)
  {
    ResolveUsesProducer(c, good, rate, optimized, rank);
    InputsRankLower(c, optimized, rank, good, FindBuilding(c.buildings, good).value);
  }

  /** Every built node anywhere in the tree is balanced. */
  predicate AllBalanced(n: Node) {
    && Balanced(n)
    && (!n.Failed? ==> forall g :: g in n.sub ==> AllBalanced(n.sub[g]))
  }

  /** Every built node of a resolved tree is balanced, at every depth. */
  lemma {:induction false} ResolveAllBalanced(c: Catalog, good: string, rate: real, optimized: bool, rank: string -> nat)
    requires Acyclic(c, optimized, rank)
    ensures AllBalanced(Resolve(c, good, rate, optimized, rank))
    decreases rank(good)
  {
    var r := Resolve(c, good, rate, optimized, rank);
    if r.Produced? {
      ResolveSubChains(c, good, rate, optimized, rank);
      SubChainsRankLower(c, good, rate, optimized, rank);
      forall g | g in r.sub
        ensures AllBalanced(r.sub[g])
      {
        ResolveAllBalanced(c, g, r.inputs[g], optimized, rank);
      }
    }
  }

  /** No node anywhere in the tree carries a productivity bonus or a modifier. */
  predicate Unmodified(n: Node) {
    !n.Failed? ==>
      && n.productivity == 1.0
      && n.modifiers == []
      && forall g :: g in n.sub ==> Unmodified(n.sub[g])
  }

  /** Base mode applies no modifier anywhere in the tree. */
  lemma {:induction false} BaseModeUnmodified(c: Catalog, good: string, rate: real, rank: string -> nat)
    requires Acyclic(c, false, rank)
    ensures Unmodified(Resolve(c, good, rate, false, rank))
    decreases rank(good)
  {
    var r := Resolve(c, good, rate, false, rank);
    if r.Produced? {
      ResolveUsesProducer(c, good, rate, false, rank);
      ResolveSubChains(c, good, rate, false, rank);
      SubChainsRankLower(c, good, rate, false, rank);
      forall g | g in r.sub
        ensures Unmodified(r.sub[g])
      {
        BaseModeUnmodified(c, g, r.inputs[g], rank);
      }
    }
  }

  /**
    The recipe registry is never consulted: replacing it changes neither
    the acyclicity condition nor any resolved tree.
   */
  lemma {:induction false} ResolveIgnoresRecipeRegistry(
    c: Catalog, recipes: map<string, Recipe>, good: string, rate: real, optimized: bool, rank: string -> nat)
    requires Acyclic(c, optimized, rank)
    ensures Acyclic(c.(recipes := recipes), optimized, rank)
    ensures Resolve(c.(recipes := recipes), good, rate, optimized, rank) == Resolve(c, good, rate, optimized, rank)
    decreases rank(good)
  {
    var c' := c.(recipes := recipes);
    assert forall b :: Configure(c', b, optimized) == Configure(c, b, optimized);
    assert forall g, i :: Feeds(c', optimized, g, i) == Feeds(c, optimized, g, i);
    if good in c.goods && !c.goods[good].isRaw && FindBuilding(c.buildings, good).Some? {
      var b := FindBuilding(c.buildings, good).value;
      var s := Configure(c, b, optimized);
      if OutputRate(s.recipe, good) > 0.0 {
        var inputs := Demand(s.recipe, Count(rate, OutputRate(s.recipe, good)));
        InputsRankLower(c, optimized, rank, good, b);
        var sub := map g | g in s.recipe.inputs :: Resolve(c, g, inputs[g], optimized, rank);
        var sub' := map g | g in s.recipe.inputs :: Resolve(c', g, inputs[g], optimized, rank);
        forall g | g in s.recipe.inputs
          ensures sub'[g] == sub[g]
        {
          ResolveIgnoresRecipeRegistry(c, recipes, g, inputs[g], optimized, rank);
        }
        SameEntries(sub', sub);
        assert Resolve(c, good, rate, optimized, rank) == Build(good, rate, b, s, sub);
        assert Resolve(c', good, rate, optimized, rank) == Build(good, rate, b, s, sub');
      }
    }
  }

  /**
    The rank only witnesses termination: any two ranks under which the
    catalogue is acyclic give the same tree.
   */
  lemma {:induction false} ResolveIgnoresRank(
    c: Catalog, good: string, rate: real, optimized: bool, r1: string -> nat, r2: string -> nat)
    requires Acyclic(c, optimized, r1) && Acyclic(c, optimized, r2)
    ensures Resolve(c, good, rate, optimized, r1) == Resolve(c, good, rate, optimized, r2)
    decreases r1(good)
  {
    if good in c.goods && !c.goods[good].isRaw && FindBuilding(c.buildings, good).Some? {
      var b := FindBuilding(c.buildings, good).value;
      var s := Configure(c, b, optimized);
      if OutputRate(s.recipe, good) > 0.0 {
        var inputs := Demand(s.recipe, Count(rate, OutputRate(s.recipe, good)));
        InputsRankLower(c, optimized, r1, good, b);
        InputsRankLower(c, optimized, r2, good, b);
        var sub1 := map g | g in s.recipe.inputs :: Resolve(c, g, inputs[g], optimized, r1);
        var sub2 := map g | g in s.recipe.inputs :: Resolve(c, g, inputs[g], optimized, r2);
        forall g | g in s.recipe.inputs
          ensures sub1[g] == sub2[g]
        {
          ResolveIgnoresRank(c, g, inputs[g], optimized, r1, r2);
        }
        SameEntries(sub1, sub2);
        assert Resolve(c, good, rate, optimized, r1) == Build(good, rate, b, s, sub1);
        assert Resolve(c, good, rate, optimized, r2) == Build(good, rate, b, s, sub2);
      }
    }
  }

  /** Two maps with the same keys and the same value under every key are equal. */
  lemma SameEntries<V>(m1: map<string, V>, m2: map<string, V>)
    requires m1.Keys == m2.Keys
    requires forall k :: k in m1 ==> m1[k] == m2[k]
    ensures m1 == m2
  {
  }
}

=== FILE: selection.dfy ===
/**
  The modifier-selection heuristic of optimized mode: a fixed priority over
  three named modifiers among those compatible with the building.
 */
module Selection {
  import opened Wrappers
  import opened Buildings
  import opened Modifiers

  /** The modifiers, in registration order, that can apply to a building with `tags`. */
  function Compatible(ms: seq<Modifier>, tags: seq<string>): (r: seq<Modifier>)
    ensures forall m :: m in r <==> m in ms && CanApplyTo(m, tags)
    ensures |r| <= |ms|
  {
    if |ms| == 0 then []
    else
      var rest := Compatible(ms[1..], tags);
      assert forall m :: m in ms <==> m == ms[0] || m in ms[1..];
      if CanApplyTo(ms[0], tags) then [ms[0]] + rest else rest
  }

  /** The first modifier of `ms` called `name`, if any. */
  function FirstNamed(ms: seq<Modifier>, name: string): (r: Option<Modifier>)
    ensures r.None? <==> forall i :: 0 <= i < |ms| ==> ms[i].name != name
    ensures r.Some? ==> r.value in ms && r.value.name == name
  {
    if |ms| == 0 then None
    else if ms[0].name == name then Some(ms[0])
    else
      assert forall i :: 0 < i < |ms| ==> ms[i] == ms[1..][i - 1];
      FirstNamed(ms[1..], name)
  }

  /** The selection as a list of 0 or 1 modifiers. */
  function AsList(o: Option<Modifier>): (ms: seq<Modifier>) {
    match o
    case Some(m) => [m]
    case None => []
  }

  /**
    The modifiers to apply to building `b`, given all registered modifiers:
    for an "Old World" building the compatible "Master Baker"; otherwise, for
    an electrifiable building, the compatible "Electricity"; and when neither
    rule selected anything, the compatible "Automation". At most one modifier
    is selected, always a compatible one.
   */
  function FindBestModifiers(all: seq<Modifier>, b: Building): (r: seq<Modifier>)
    ensures |r| <= 1
    ensures forall m :: m in r ==> m in all && CanApplyTo(m, b.tags)
  {
    var compatible := Compatible(all, b.tags);
    var byTag :=
      if "Old World" in b.tags then AsList(FirstNamed(compatible, "Master Baker"))
      else if b.isElectrifiable then AsList(FirstNamed(compatible, "Electricity"))
      else [];
    if |byTag| > 0 then byTag else AsList(FirstNamed(compatible, "Automation"))
  }

  /** Some registered modifier called `name` is compatible with `b`. */
  ghost predicate Offers(all: seq<Modifier>, b: Building, name: string) {
    exists m :: m in all && CanApplyTo(m, b.tags) && m.name == name
  }

  /** The names of a list of modifiers, in order. */
  function Names(ms: seq<Modifier>): (ns: seq<string>)
    ensures |ns| == |ms|
    ensures forall i :: 0 <= i < |ms| ==> ns[i] == ms[i].name
  {
    if |ms| == 0 then [] else [ms[0].name] + Names(ms[1..])
  }

  /** Looking up a name among the compatible modifiers succeeds exactly when one is offered. */
  lemma FirstNamedCompatible(all: seq<Modifier>, b: Building, name: string)
    ensures FirstNamed(Compatible(all, b.tags), name).Some? <==> Offers(all, b, name)
  {
    var compatible := Compatible(all, b.tags);
    if Offers(all, b, name) {
      var m :| m in all && CanApplyTo(m, b.tags) && m.name == name;
      assert m in compatible;
      var i :| 0 <= i < |compatible| && compatible[i] == m;
    }
  }

  /**
    The selection priority, stated over which modifiers are offered: Master
    Baker for an "Old World" building; else Electricity for an electrifiable
    building; Automation when neither of those was selected; else nothing.
   */
  lemma SelectionPriority(all: seq<Modifier>, b: Building)
    ensures Names(FindBestModifiers(all, b)) ==
              if "Old World" in b.tags && Offers(all, b, "Master Baker") then ["Master Baker"]
              else if "Old World" !in b.tags && b.isElectrifiable && Offers(all, b, "Electricity") then ["Electricity"]
              else if Offers(all, b, "Automation") then ["Automation"]
              else []
  {
    FirstNamedCompatible(all, b, "Master Baker");
    FirstNamedCompatible(all, b, "Electricity");
    FirstNamedCompatible(all, b, "Automation");
  }

  /** Among equally named modifiers, the first one in `ms` satisfying `CanApplyTo` for `tags`. */
  ghost predicate FirstCompatibleNamedAt(ms: seq<Modifier>, tags: seq<string>, name: string, i: int) {
    && 0 <= i < |ms|
    && CanApplyTo(ms[i], tags) && ms[i].name == name
    && forall j :: 0 <= j < i ==> !(CanApplyTo(ms[j], tags) && ms[j].name == name)
  }

  /** Looking up a name among the compatible modifiers finds the first compatible one in registration order. */
  lemma {:induction false} FirstNamedCompatibleIsFirst(ms: seq<Modifier>, tags: seq<string>, name: string)
    requires FirstNamed(Compatible(ms, tags), name).Some?
    ensures exists i :: FirstCompatibleNamedAt(ms, tags, name, i) && ms[i] == FirstNamed(Compatible(ms, tags), name).value
    decreases |ms|
  {
    var rest := Compatible(ms[1..], tags);
    assert forall j :: 0 < j < |ms| ==> ms[j] == ms[1..][j - 1];
    if CanApplyTo(ms[0], tags) && ms[0].name == name {
      assert Compatible(ms, tags) == [ms[0]] + rest;
      assert FirstCompatibleNamedAt(ms, tags, name, 0);
    } else {
      assert FirstNamed(Compatible(ms, tags), name) == FirstNamed(rest, name) by {
        if CanApplyTo(ms[0], tags) {
          assert Compatible(ms, tags) == [ms[0]] + rest;
          assert ([ms[0]] + rest)[1..] == rest;
        }
      }
      FirstNamedCompatibleIsFirst(ms[1..], tags, name);
      var i :| FirstCompatibleNamedAt(ms[1..], tags, name, i) && ms[1..][i] == FirstNamed(rest, name).value;
      assert FirstCompatibleNamedAt(ms, tags, name, i + 1);
    }
  }

  /** Every selected modifier is the first compatible modifier of its name in registration order. */
  lemma SelectedIsFirstOfItsName(all: seq<Modifier>, b: Building)
    requires |FindBestModifiers(all, b)| == 1
    ensures var m := FindBestModifiers(all, b)[0];
            exists i :: FirstCompatibleNamedAt(all, b.tags, m.name, i) && all[i] == m
  {
    var compatible := Compatible(all, b.tags);
    var m := FindBestModifiers(all, b)[0];
    if FirstNamed(compatible, "Master Baker") == Some(m) {
      FirstNamedCompatibleIsFirst(all, b.tags, "Master Baker");
    } else if FirstNamed(compatible, "Electricity") == Some(m) {
      FirstNamedCompatibleIsFirst(all, b.tags, "Electricity");
    } else {
      assert FirstNamed(compatible, "Automation") == Some(m);
      FirstNamedCompatibleIsFirst(all, b.tags, "Automation");
    }
  }
}
